=== FILE: README.md ===
# Blob replication engine of scuttlebot, modelled in Dafny

This project models the bookkeeping core of scuttlebot's blob replication
plugin (`plugins/blobs/replication.js`). A node wants blobs (content-addressed
byte strings) it does not hold. The plugin does four things:

- it watches the feed for links to blobs and queues recent ones;
- it asks each connected peer, in one batched `has` call, which wanted blobs
  it holds;
- it records the answers per peer, with a `notfounds` miss counter;
- it runs a download job that fetches a `ready` blob from a connected peer
  into the blob store.

The model is a sequential state machine. `Node.State` is an immutable record
with these parts:

- the want-list, as an ordered sequence of entries. Each entry has an `id`, a
  phase (`waiting | ready | downloading`), an ordered `has` object mapping
  peer to boolean, and `notfounds`;
- the connected peers;
- the in-flight query marker `queries`, which also keeps the ids asked;
- the download job's `oneTrack` counters (`doing`, plus the number of armed
  re-invocation timers);
- the downloads whose store write has not yet reported.

Every asynchronous callback of the source is its own event, and each event is
a pure function:

- a feed link arrives (`Replication.LinkSeen`);
- a peer connects or disconnects (`Replication.Connect`, `Replication.Disconnect`);
- `query` is called (`Query.Start`);
- a `has` reply arrives (`Query.Reply`);
- a `blobs.changes` item arrives (`Replication.PeerHas`);
- a store write reports (`Download.StoreReply`);
- a re-arm timer fires (`Download.TimerFires`).

`Replication.Step` and `Replication.Run` drive these events, and
`Replication.RunInv` proves the invariant over any sequence of them.

JavaScript objects are modelled as sequences of key/value pairs in `for..in`
order. Peer and blob ids are never integer-like, so that order is insertion
order (`OrderedMap`). The want-list module (`./want-list`) is not part of this
model. `WantList` gives its operations the smallest definitions consistent
with how this file calls them:

- `subset` filters in order;
- `isFoundAt` reads `has[p] === true`;
- `setFoundAt` writes `has[p] = true` and promotes `waiting` to `ready`;
- `got` removes the entry;
- `queue` appends a fresh `waiting` entry with `notfounds` 0.

`isBlobId` comes from ssb-ref, which is not part of this model. `Helpers.IsBlob`
takes the blob-id shape: `&`, 43 base64 characters, `=`, then `.sha256`. The
proofs use only the leading `&`.

The model follows the code as written. In these places its comments
(lines 45-51, 211) or the evident intent of a line (line 87) suggest
otherwise:

- **No jitter.** The inner `function delay` (line 64) is hoisted over the
  numeric `delay` parameter (line 53). So the re-arm wait at line 87 is
  `~~NaN`, which is 0, and not a jittered value in `[delay/2, delay*1.5)`. The
  model keeps no timings, only a count of armed timers.
- **Download always re-arms.** The download job calls `done()` with no
  argument (line 229). That is falsy, so every finished download arms one
  re-invocation (`Download.StoreReply`).
- **Peer choice ignores the has-value.** The peer is the first CONNECTED key
  of the entry's `has` object (line 213). It need not be a peer recorded with
  `true`. With `has = {A: false, B: true}` the job streams from A
  (`Download.PeerChoiceIgnoresHasValue`).
- **A failed query never calls back.** Without a `hasList` (line 182) the
  caller's `done` is never called (`Query.Completion.NeverCalled`).
- **The download can start inside the query reply.** `download()` runs its
  selection synchronously. So an entry found in a `has` reply can move to
  `downloading` before the reply loop reaches the next candidate. `Query.ReplyLoop`
  interleaves the job calls exactly where the source makes them.

## Model

| member | source | states |
|---|---|---|
| `Helpers.Clamp` | plugins/blobs/replication.js:30-32 | When `lo <= hi` the result lies in `[lo, hi]`. A value already in range is returned unchanged. Below the range gives `lo`; above it gives `hi`. |
| `Helpers.NotFoundStep` | plugins/blobs/replication.js:194 | One negative answer takes an in-range `notfounds` to `min(notfounds + 1, 40)`, and the result stays in `[0, 40]`. |
| `Helpers.NotFoundSaturates` | plugins/blobs/replication.js:194 | Any number `k` of negative answers in a row takes `n` in `[0, 40]` to `min(n + k, 40)`. The counter never leaves `[0, 40]` and saturates at 40. |
| `Helpers.Desigil` | plugins/blobs/replication.js:34-36 | For a blob id the result drops exactly the leading `&`. Any other string is returned unchanged. |
| `Helpers.Resigil` | plugins/blobs/replication.js:38-40 | The result is always `&` followed by the whole input. |
| `Helpers.SigilRoundTrip` | plugins/blobs/replication.js:34-40 | `resigil(desigil(h)) == h` for every blob id `h`. |
| `Helpers.SigilRoundTripKey` | plugins/blobs/replication.js:34-40 | `desigil(resigil(k)) == k` whenever `resigil(k)` is a blob id. |
| `Helpers.AdmitBoundary` | plugins/blobs/replication.js:118-119 | The month bound is strict. A timestamp exactly `MONTH_IN_MS` away, in the past or the future, is rejected; one millisecond closer is admitted. |
| `Helpers.AdmitSymmetric` | plugins/blobs/replication.js:118 | Admission depends only on the absolute time difference. A message `d` ms in the past is treated like one `d` ms in the future. |
| `Helpers.AdmitTwentyNineDays` | plugins/blobs/replication.js:43 | With `MONTH_IN_MS = 1000*60*60*24*30`, a message 29 days old is admitted and one 31 days old is not. |
| `Helpers.AdmitNeedsBlobNotHeld` | plugins/blobs/replication.js:112-120 | An admitted hash is a blob id starting with `&` and not held by the store, and its message lies strictly within a month of now. |
| `Helpers.Admit` | plugins/blobs/replication.js:112-119 | A linked hash is admitted exactly when it is a blob id, the store does not hold it, and `now - timestamp` lies strictly between minus one month and one month. |
| `OrderedMap.FirstIndex` | plugins/blobs/replication.js:18-19 | Returns the first position the predicate accepts, scanning in iteration order, with no earlier position accepted. Returns `None` exactly when no position is accepted. |
| `OrderedMap.First` | plugins/blobs/replication.js:16-21 | `first(obj, iter)` returns the value of the first entry accepted by `iter(value, key)`, in iteration order. It returns `undefined` exactly when no entry is accepted. |
| `OrderedMap.FirstKey` | plugins/blobs/replication.js:23-28 | `firstKey(obj, iter)` returns the key of the first entry accepted by `iter(value, key)`. It returns `undefined` exactly when no entry is accepted. |
| `OrderedMap.IndexOf` | plugins/blobs/replication.js:134 | The position of key `k` is the first position holding `k`. It is `None` exactly when the object has no key `k`. |
| `OrderedMap.Get` | plugins/blobs/replication.js:134 | Reading `obj[k]` gives `undefined` exactly when the object has no key `k`. With distinct keys it gives the value stored under `k`. |
| `OrderedMap.Put` | plugins/blobs/replication.js:147 | `obj[k] = v` (the write `has[peer] = true` of `setFoundAt`) keeps every existing key in its place. A new key is appended last. |
| `OrderedMap.GetPutSame` | plugins/blobs/replication.js:147 | After `obj[k] = v`, reading `k` gives `v`. |
| `OrderedMap.GetPutOther` | plugins/blobs/replication.js:147 | `obj[k] = v` leaves the value of every other key as it was. |
| `OrderedMap.Delete` | plugins/blobs/replication.js:134 | `delete obj[k]` removes exactly the key's entry and keeps the others in order. Deleting an absent key changes nothing. |
| `OrderedMap.DeleteKeysDistinct` | plugins/blobs/replication.js:134 | Deleting a key from an object keeps its keys distinct. |
| `OrderedMap.GetDeleteSame` | plugins/blobs/replication.js:134 | After `delete obj[k]` the key reads `undefined`. |
| `OrderedMap.GetDeleteOther` | plugins/blobs/replication.js:134 | `delete obj[k]` leaves the value of every other key as it was. |
| `OneTrack.Call` | plugins/blobs/replication.js:73-76 | A call with `doing >= n` is dropped and changes nothing. Otherwise `doing` goes up by one. No call touches the timers, and no call takes `doing` above `n`. |
| `OneTrack.Complete` | plugins/blobs/replication.js:79-89 | A completion lowers `doing` by one. `done(true)` arms no timer, and a falsy `done` arms exactly one re-invocation. |
| `OneTrack.Fire` | plugins/blobs/replication.js:66-68 | A firing timer leaves the timer list, one fewer, and `doing` is untouched. |
| `OneTrack.StepBounded` | plugins/blobs/replication.js:73-90 | Every possible call, completion or timer keeps `0 <= doing <= n`. |
| `OneTrack.RunBounded` | plugins/blobs/replication.js:73-90 | Over any sequence of calls, completions and timers, at most `n` invocations of the job run at once. |
| `OneTrack.CompletionsArmTimers` | plugins/blobs/replication.js:79-89 | Over a run of completions, `doing` falls by their number. The timers armed are exactly the completions that reported a falsy `done`. |
| `WantList.Subset` | plugins/blobs/replication.js:169-171 | `subset(pred)` returns only entries that `pred` accepts, and it returns every such entry. |
| `WantList.SubsetConcat` | plugins/blobs/replication.js:204-208 | `subset` keeps want-list order: filtering a concatenation filters each part in turn. |
| `WantList.SubsetOrdered` | plugins/blobs/replication.js:169-171 | Of any two entries `subset` returns, the earlier one stands earlier in the want-list. |
| `WantList.SubsetHead` | plugins/blobs/replication.js:209-212 | `subset(pred)` is non-empty exactly when some entry is accepted. Its head is the first accepted entry, so `shift()` takes that entry. |
| `WantList.SubsetIdsDistinct` | plugins/blobs/replication.js:169-177 | Filtering a want-list with one entry per id gives entries with distinct ids. So a query never asks about one id twice. |
| `WantList.SetFoundAt` | plugins/blobs/replication.js:189 | After `setFoundAt(id, peer)` the peer is recorded as having a wanted id. The entry's has-object becomes `has[peer] = true`, and the entry is no longer `waiting`. Other entries, every `notfounds`, and well-formed has-objects are preserved. An unwanted id changes nothing. |
| `WantList.BumpNotFound` | plugins/blobs/replication.js:194 | Only the named entry changes. Its `notfounds` becomes `clamp(notfounds + 1, 0, 40)`, and its has-object and phase stay as they were. |
| `WantList.SetPhase` | plugins/blobs/replication.js:218 | Only the named entry's phase changes. Ids, has-objects and `notfounds` are untouched. |
| `WantList.Got` | plugins/blobs/replication.js:228 | After `got(id)` the id is no longer wanted. Every other entry stays, no entry is invented, and ids stay distinct. With distinct ids, the result is the want-list with exactly that entry spliced out, so the rest keep their order. An id not wanted changes nothing. |
| `WantList.Queue` | plugins/blobs/replication.js:120 | After `queue(id)` the id is wanted. A new id goes last as a fresh `waiting` entry; an already-tracked id changes nothing. |
| `WantList.ForgetNegative` | plugins/blobs/replication.js:133-135 | For the connecting peer, `has[peer]` is deleted exactly where it was `false`. A recorded `true` and every other peer's value are unchanged, and so are the id, phase and `notfounds`. The deletion removes just that key, so the remaining peers keep their `for..in` order, which the job's `firstKey` at line 213 reads. Anything other than a recorded `false` leaves the entry as it was. |
| `WantList.ForgetNegatives` | plugins/blobs/replication.js:133-135 | The connect handler's loop applies the reset to every entry, in place, and keeps the ids. |
| `WantList.GotAddsNothing` | plugins/blobs/replication.js:228 | `got` never makes an id wanted. |
| `WantList.FindAt` | plugins/blobs/replication.js:185 | In a want-list with one entry per id, looking up an entry's id finds that entry. |
| `WantList.FindSameIds` | plugins/blobs/replication.js:185 | `wants(id)` depends only on the ids in the list and their order. |
| `WantList.SameKnowledgeLookups` | plugins/blobs/replication.js:170 | `wants` and `isFoundAt` do not look at phases. Want-lists that differ only in phases answer them alike. |
| `Download.DownloadableMeans` | plugins/blobs/replication.js:204-208 | An entry passes the job's filter exactly when it is `ready` and some connected peer is recorded with a truthy has-value. |
| `Download.Choose` | plugins/blobs/replication.js:204-215 | The chosen entry is the first downloadable one. The chosen peer is connected, non-empty, and the first connected key of that entry's has-object. With no downloadable entry nothing is chosen. If some entry is downloadable and no peer id is empty, something is chosen. |
| `Download.ChooseIsSubsetHead` | plugins/blobs/replication.js:204-212 | The chosen entry is the head of the job's `subset` call. |
| `Download.Trigger` | plugins/blobs/replication.js:202-219 | At capacity (`doing >= 5`) a call changes nothing. With nothing to fetch the invocation ends with `done(true)` and the state is unchanged. Otherwise the call makes exactly the chosen download start. Knowledge, peers, queries and timers are untouched, and `doing == \|flights\| <= 5` is kept. |
| `Download.Begin` | plugins/blobs/replication.js:217-221 | A started download moves the chosen entry to `downloading` and changes no other entry. It records a fetch from the chosen peer, and `doing` counts it. |
| `Download.FoundAt` | plugins/blobs/replication.js:146-148 | `setFoundAt` is followed by exactly one call of the download job. The knowledge left is the one `setFoundAt` gives, and a wanted id is found at the peer afterwards. Ids, peers, queries and timers are kept, and so are the invariants. |
| `Download.FoundAtStartsDownload` | plugins/blobs/replication.js:146-148 | Take a wanted entry that is not downloading, with a free slot and the peer connected. If no connected peer id is empty, recording the peer always starts one download: `doing` and the fetches in flight each rise by one. |
| `Download.FoundDownloadable` | plugins/blobs/replication.js:204-208 | After `setFoundAt(id, peer)` with `peer` connected, an entry that was not downloading passes the job's filter. |
| `Download.StoreReply` | plugins/blobs/replication.js:223-230 | A store report ends one download, and `doing` falls by one. One timer is always armed, because `done()` is falsy. On error only that entry changes, back to `ready`. On success `resigil(hash)` leaves the want-list. With distinct ids, exactly its entry is spliced out and the rest keep their order, which decides the next pick at line 212. An unwanted hash changes nothing. |
| `Download.StoredRemovesEntry` | plugins/blobs/replication.js:223-228 | A successful write that returns the requested blob's key, `desigil(id)`, takes that blob off the want-list. |
| `Download.TimerFires` | plugins/blobs/replication.js:66-67 | A firing re-arm timer is one fewer armed timer, followed by an ordinary call of the job. |
| `Download.PeerChoiceIgnoresHasValue` | plugins/blobs/replication.js:213 | Take `has = {A: false, B: true}` with both peers connected. The job chooses A, which said it lacks the blob. |
| `Query.Candidates` | plugins/blobs/replication.js:169-171 | The entries asked about are exactly the `waiting` entries not found at the peer. Their ids are distinct, and they come in want-list order, which is the order of the `has` request and of the reply loop. |
| `Query.Start` | plugins/blobs/replication.js:159-181 | The query is skipped, with the state unchanged, exactly when one of these holds: the peer is not connected, a query to it is in flight, or there are no candidates. Otherwise only the marker `queries[peer]` is set, holding the candidate ids in want-list order. A marker already in flight is never replaced. |
| `Query.ReplyLoop` | plugins/blobs/replication.js:184-196 | The per-candidate loop keeps ids, peers and queries. It keeps the job invariant, distinct ids and well-formed entries. The ids it registers with the completion callback are exactly `Waited`'s, in order: the asked ids still wanted when reached and answered truthy. Downloads started inside the loop do not change which ids are wanted. |
| `Query.Answer` | plugins/blobs/replication.js:187-195 | A truthy answer for a candidate still wanted is `setFoundAt` followed by a call of the download job (`Download.FoundAt`): the peer is recorded as having the blob. A falsy answer counts one clamped miss on that entry and nothing else. Either way ids, peers and queries are kept, as are `doing == \|flights\| <= 5` and well-formed entries. |
| `Query.Waited` | plugins/blobs/replication.js:187-191 | An id is waited on exactly when it is asked at some position `q >= i`, is still wanted, and `hasList[q]` is truthy. |
| `Query.Reply` | plugins/blobs/replication.js:179-199 | A reply always clears the peer's in-flight marker. Without a `hasList` nothing else changes and the caller is never called back. With a `hasList` the callback waits on exactly the asked ids that are still wanted and answered truthy. The invariants are kept. |
| `Query.SkipStep` | plugins/blobs/replication.js:185-186 | When the candidate at index `i` is no longer wanted, an untouched want-list predicts, from `i + 1` on, the same knowledge for every entry as it did from `i`. So skipping is consistent with `ReplyLoopKnowledge`'s prediction. |
| `Query.FoundStep` | plugins/blobs/replication.js:188-189 | Let the candidate at index `i` be answered truthy and already hold `has[peer] = true` with its miss count kept. Then its prediction from `i + 1` equals the one from `i`. Repeated ids are excluded. |
| `Query.MissStep` | plugins/blobs/replication.js:193-194 | Let the candidate at index `i` be answered falsy, including an index past the end of `hasList`, and already hold one clamped miss more with its has-object kept. Then its prediction from `i + 1` equals the one from `i`. |
| `Query.LoopStep` | plugins/blobs/replication.js:184-196 | One iteration, including any download it starts, agrees entry by entry with the predicted knowledge. |
| `Query.ReplyLoopKnowledge` | plugins/blobs/replication.js:184-196 | From index `i` on, the loop leaves every entry in place. The candidate answered at position `q >= i` gets `has[peer] = true` if `hasList[q]` is truthy and one clamped miss otherwise, and every other entry keeps its knowledge. |
| `Query.ReplyKnowledge` | plugins/blobs/replication.js:179-199 | After a reply with a `hasList`, an entry not asked about keeps its has-object and `notfounds`. The entry asked at index `q` gets `has[peer] = true` when `hasList[q]` is truthy, and otherwise keeps its has-object with `notfounds` clamped up by one. |
| `Replication.LinkSeen` | plugins/blobs/replication.js:110-121 | After a feed link the hash is wanted exactly when it already was or the admission rule holds. A rejected link changes nothing. An admitted new hash is appended as a fresh `waiting` entry. |
| `Replication.Connect` | plugins/blobs/replication.js:129-139 | The connecting peer is in the directory, and every entry is its stale-negative-reset self, in place. With no query to the peer in flight, `query(id)` sets the marker to the ids of the reset list's candidates, in order, or leaves the markers alone when there are none. A query already in flight is not replaced, and the download job is untouched. |
| `Replication.StaleNegativeRequeried` | plugins/blobs/replication.js:133-139 | Take a `waiting` entry the peer had said it lacks. After connect, the peer's new query asks about it, unless a query was already in flight. |
| `Replication.Disconnect` | plugins/blobs/replication.js:101-103 | After a disconnect the peer is no longer in the directory, so `peer(id)` is falsy. |
| `Replication.PeerHas` | plugins/blobs/replication.js:145-149 | A `blobs.changes` item for a wanted hash records the peer as having it and then calls the download job, exactly as the has-reply does (`Download.FoundAt`). The knowledge is that of `setFoundAt`. Any other hash changes nothing. |
| `Replication.InitialInv` | plugins/blobs/replication.js:54-56 | The plugin starts in a state satisfying the invariant. |
| `Replication.Step` | plugins/blobs/replication.js:101-232 | One event of the plugin. Only a connect adds to the peer directory and only a disconnect removes from it. |
| `Replication.StepOnlyLinksQueue` | plugins/blobs/replication.js:108-125 | Only the link monitor queues blobs. After any other event, every wanted id was wanted before. After a link, only the linked hash can be new. |
| `Replication.StepInv` | plugins/blobs/replication.js:129-232 | Every event keeps the invariant: one entry per blob, well-formed has-objects, `notfounds` in `[0, 40]`, `doing == \|flights\| <= 5`, and no id asked twice in one query. |
| `Replication.RunInv` | plugins/blobs/replication.js:202 | Under any sequence of events, at most five downloads run at once and every `notfounds` stays in `[0, 40]`. |
| `Replication.ChooseSole` | plugins/blobs/replication.js:204-215 | A sole `ready` entry recorded `true` at one connected peer is picked, from that peer. |
| `Replication.ChooseNoneReady` | plugins/blobs/replication.js:204-208 | With no entry `ready`, the job finds nothing to fetch. |
| `Replication.TriggerSole` | plugins/blobs/replication.js:202-221 | A job call on a sole downloadable entry makes it `downloading`, records one fetch from its peer, and raises `doing` to 1. |
| `Replication.DownloadEndToEnd` | plugins/blobs/replication.js:204-230 | Take a ready blob recorded at connected peer `b`. The job streams it from `b`. A failed write returns it to `ready`, where the next call picks it again. A successful write removes it from the want-list. |

## Left out

- Pull-stream pipelines and live subscriptions (`sbot.links`, `rpc.blobs.changes`, `peer(id).blobs.get`) are I/O. Their deliveries are the events' inputs.
- Blob-store and feed lookups (`blobs.has`, `blobs.add`, `sbot.get`) are foreign calls. Their answers are event parameters: a boolean, an integer millisecond timestamp, or a store result.
- The `sbot.get` error path is not modelled. There `msg` is `undefined` and reading `msg.timestamp` throws inside the callback.
- A `blobs.has` error reply passes `undefined` as `has`. That is falsy, so it is the `held = false` case.
- `setTimeout`, `clearTimeout`, real time and `Math.random` are not modelled. Armed re-invocations are a count, and the computed wait is 0.
- `job.abort` (lines 92-94) only clears host timers and leaves the `timers` array as it is.
- The `clear` helper (lines 58-62) is dead code. It references undefined names and is never called.
- The unused helpers `isFunction` and `each` (lines 7-14) are not modelled.
- The default `iter = iter || id` in `first`/`firstKey` is not modelled. `id` is undefined at module scope, and every call site passes a predicate.
- The `multicb`/`waitFor` completion aggregation is callback plumbing into `./want-list`. `Query.Completion` records only which ids the callback waits for.
- Logging (`console.error`, `log:info`) is not modelled.
- The internals of `./want-list` are not part of this model; only the contract above is kept. Its `notfounds` is taken to start at 0. A non-numeric `notfounds` (a `NaN` path) is not modelled.
- Entries are identified by id, not by object. Both a query reply and a store error write to the entry object they captured. If that entry is removed and re-queued while the query or download is in flight, the source writes to the detached old object. The model writes to the new entry.
- `sbot.peers` is modelled as a set of connected ids. This assumes the directory drops a peer's key when its last connection closes, so `sbot.peers[k]` is truthy exactly when `peer(k)` is.
- Query.ReplyKnowledge: states every entry's has-object and `notfounds` after a reply, but not its phase. Phases change only through `WantList.SetFoundAt` (promotion) and the downloads that `Download.Trigger` starts during the loop, and their contracts state those changes.

=== FILE: download.dfy ===
/**
 The download job: `oneTrack(300, 5, 'download', …)`. Each invocation picks
 the first `ready` entry that some connected peer is recorded as having,
 picks the first connected key of that entry's `has` object, marks the entry
 `downloading` and starts the fetch. The store write reports later, as its
 own event.
 */
module Download {
  import opened Wrappers
  import opened OrderedMap
  import opened Helpers
  import opened WantList
  import OneTrack
  import opened Node

  /** At most five downloads run at once. */
  const SLOTS: int := 5

  /** Every started download is counted in `doing`, and there are at most five. */
  ghost predicate JobInv(st: State) {
    0 <= st.track.doing == |st.flights| <= SLOTS
  }

  /**
   The filter of the job's `subset` call: the entry is `ready` and
   `first(e.has, (has, k) => has && sbot.peers[k])` is truthy.
   */
  predicate Downloadable(e: Entry, peers: set<string>) {
    e.phase == Ready && First(e.has, (v: bool, k: string) => v && k in peers) == Some(true)
  }

  /** Downloadable means: `ready`, and some connected peer is recorded with `true`. */
  lemma DownloadableMeans(e: Entry, peers: set<string>)
    ensures Downloadable(e, peers) <==>
      e.phase == Ready && exists j :: 0 <= j < |e.has| && e.has[j].1 && e.has[j].0 in peers
  {
  }

  /** The entry (by position) and the peer an invocation of the job takes. */
  datatype Pick = Pick(index: nat, peer: string)

  /**
   `readyBlobs.shift()` and `firstKey(f.has, (_, id) => !!sbot.peers[id])`.
   The entry is the first downloadable one; the peer is the first CONNECTED
   key of that entry, whatever its has-value; an empty key is falsy and gives
   up like no key.
   */
  function Choose(ws: seq<Entry>, peers: set<string>): (r: Option<Pick>)
    ensures r.Some? ==> r.value.index < |ws| && Downloadable(ws[r.value.index], peers)
    ensures r.Some? ==> forall j :: 0 <= j < r.value.index ==> !Downloadable(ws[j], peers)
    ensures r.Some? ==> r.value.peer in peers && r.value.peer != ""
    ensures r.Some? ==>
      var has := ws[r.value.index].has;
      exists k :: 0 <= k < |has| && has[k].0 == r.value.peer
        && forall j :: 0 <= j < k ==> has[j].0 !in peers
    ensures (forall i :: 0 <= i < |ws| ==> !Downloadable(ws[i], peers)) ==> r.None?
    ensures (exists i :: 0 <= i < |ws| && Downloadable(ws[i], peers)) && "" !in peers ==> r.Some?
  {
    match FirstIndex(ws, (e: Entry) => Downloadable(e, peers))
    case None => None
    case Some(i) =>
      DownloadableMeans(ws[i], peers);
      match FirstKey(ws[i].has, (v: bool, k: string) => k in peers)
      case None => None
      case Some(id) => if id == "" then None else Some(Pick(i, id))
  }

  /** Choosing the head of `subset(...)` is choosing the first downloadable entry. */
  lemma ChooseIsSubsetHead(ws: seq<Entry>, peers: set<string>)
    ensures
      var ready := Subset(ws, (e: Entry) => Downloadable(e, peers));
      Choose(ws, peers).Some? ==> |ready| > 0 && ready[0] == ws[Choose(ws, peers).value.index]
  {
    SubsetHead(ws, (e: Entry) => Downloadable(e, peers));
  }

  /**
   `download()`: a call of the job. At capacity it is dropped. With nothing
   to fetch the invocation ends at once with `done(true)`, arming nothing,
   so the state is as before. Otherwise the chosen entry becomes
   `downloading`, a fetch from the chosen peer is in flight, and nothing else
   changes.
   */
  function Trigger(st: State): (r: State)
    ensures st.track.doing >= SLOTS ==> r == st
    ensures Choose(st.wants, st.peers).None? ==> r == st
    ensures st.track.doing < SLOTS && Choose(st.wants, st.peers).Some? ==>
      r == Begin(st, Choose(st.wants, st.peers).value)
    ensures SameKnowledge(r.wants, st.wants)
    ensures r.peers == st.peers && r.queries == st.queries && r.track.pending == st.track.pending
    ensures JobInv(st) ==> JobInv(r)
  {
    var (t, started) := OneTrack.Call(st.track, SLOTS);
    if !started then st
    else
      var pick := Choose(st.wants, st.peers);
      if pick.None? then st.(track := OneTrack.Complete(t, true))
      else Begin(st, pick.value)
  }

  /**
   An invocation that found work: the chosen entry becomes `downloading`, a
   fetch from the chosen peer is in flight and `doing` counts it; no other
   entry changes.
   */
  function Begin(st: State, pk: Pick): (r: State)
    requires pk.index < |st.wants|
    ensures SameKnowledge(r.wants, st.wants)
    ensures
      var id := st.wants[pk.index].id;
      && Wants(st.wants, id)
      && r.wants[Find(st.wants, id).value].phase == Downloading
      && (forall j :: 0 <= j < |st.wants| && st.wants[j].id != id ==> r.wants[j] == st.wants[j])
      && r.flights == st.flights + [Flight(id, pk.peer)]
      && r.track == OneTrack.Track(st.track.doing + 1, st.track.pending)
    ensures r.peers == st.peers && r.queries == st.queries
  {
    var id := st.wants[pk.index].id;
    assert Wants(st.wants, id);
    st.(track := OneTrack.Track(st.track.doing + 1, st.track.pending),
        wants := SetPhase(st.wants, id, Downloading),
        flights := st.flights + [Flight(id, pk.peer)])
  }

  /**
   `setFoundAt(id, peer)` followed by `download()`, as both the `has` reply
   and the `blobs.changes` handler do. The knowledge is that of `setFoundAt`;
   only phases may differ, where the job started a download. Peers, queries
   and timers are untouched and the invariants are kept.
   */
  function FoundAt(st: State, id: string, peer: string): (r: State)
    ensures r == Trigger(st.(wants := SetFoundAt(st.wants, id, peer)))
    ensures SameKnowledge(r.wants, SetFoundAt(st.wants, id, peer))
    ensures Wants(st.wants, id) ==> IsFoundAt(r.wants, id, peer)
    ensures Ids(r.wants) == Ids(st.wants)
    ensures r.peers == st.peers && r.queries == st.queries && r.track.pending == st.track.pending
    ensures JobInv(st) ==> JobInv(r)
    ensures AllWellFormed(st.wants) ==> AllWellFormed(r.wants)
  {
    var ws1 := SetFoundAt(st.wants, id, peer);
    var r := Trigger(st.(wants := ws1));
    SameKnowledgeWellFormed(r.wants, ws1);
    SameKnowledgeLookups(r.wants, ws1, id, peer);
    r
  }

  /**
   Recording a peer for a blob that is not yet downloading, while a slot is
   free and the peer is connected, always starts a download: the job then
   has at least that entry to fetch.
   */
  lemma FoundAtStartsDownload(st: State, id: string, peer: string)
    requires Wants(st.wants, id) && st.track.doing < SLOTS
    requires WellFormed(st.wants[Find(st.wants, id).value])
    requires st.wants[Find(st.wants, id).value].phase != Downloading
    requires peer in st.peers && "" !in st.peers
    ensures |FoundAt(st, id, peer).flights| == |st.flights| + 1
    ensures FoundAt(st, id, peer).track.doing == st.track.doing + 1
  {
    var k := Find(st.wants, id).value;
    var st1 := st.(wants := SetFoundAt(st.wants, id, peer));
    FoundDownloadable(st.wants, id, peer, st.peers);
    assert Choose(st1.wants, st.peers).Some?;
    assert FoundAt(st, id, peer) == Begin(st1, Choose(st1.wants, st1.peers).value);
  }

  /** After `setFoundAt(id, peer)` with `peer` connected, the entry passes the job's filter. */
  lemma FoundDownloadable(ws: seq<Entry>, id: string, peer: string, peers: set<string>)
    requires Wants(ws, id) && WellFormed(ws[Find(ws, id).value])
    requires ws[Find(ws, id).value].phase != Downloading
    requires peer in peers
    ensures Downloadable(SetFoundAt(ws, id, peer)[Find(ws, id).value], peers)
  {
    var k := Find(ws, id).value;
    var e := SetFoundAt(ws, id, peer)[k];
    assert e.phase == Ready;
    PutKeysDistinct(ws[k].has, peer, true);
    GetPutSame(ws[k].has, peer, true);
    var j :| 0 <= j < |e.has| && e.has[j].0 == peer;
    assert e.has[j].1;
    DownloadableMeans(e, peers);
  }

  /** What the blob store's `add` callback reports: the stored key, or an error. */
  datatype StoreResult = Stored(hash: string) | StoreFailed

  /**
   The store write of flight `k` reports. On error the entry goes back to
   `ready`; on success `got(resigil(hash))`. Either way the job's `done()` is
   called with no argument, which is falsy: one re-invocation is armed.
   */
  function StoreReply(st: State, k: nat, res: StoreResult): (r: State)
    requires k < |st.flights|
    ensures r.track.doing == st.track.doing - 1
    ensures r.track.pending == st.track.pending + 1
    ensures multiset(r.flights) + multiset{st.flights[k]} == multiset(st.flights)
    ensures res.StoreFailed? ==>
      && SameKnowledge(r.wants, st.wants)
      && (Wants(st.wants, st.flights[k].id) ==> r.wants[Find(st.wants, st.flights[k].id).value].phase == Ready)
      && (forall j :: 0 <= j < |st.wants| && st.wants[j].id != st.flights[k].id ==> r.wants[j] == st.wants[j])
    ensures res.Stored? ==>
      && !Wants(r.wants, Resigil(res.hash))
      && (forall e :: e in r.wants ==> e in st.wants)
      && (forall j :: 0 <= j < |st.wants| && st.wants[j].id != Resigil(res.hash) ==> st.wants[j] in r.wants)
      && (!Wants(st.wants, Resigil(res.hash)) ==> r.wants == st.wants)
    ensures res.Stored? && IdsDistinct(st.wants) && Wants(st.wants, Resigil(res.hash)) ==>
      var i := Find(st.wants, Resigil(res.hash)).value;
      r.wants == st.wants[..i] + st.wants[i + 1..]
    ensures r.peers == st.peers && r.queries == st.queries
  {
    match res
    case StoreFailed => Finish(st, k, SetPhase(st.wants, st.flights[k].id, Ready))
    case Stored(hash) => Finish(st, k, Got(st.wants, Resigil(hash)))
  }

  /** Flight `k` ends with want-list `ws`: the job's `done()` runs and the flight is dropped. */
  function Finish(st: State, k: nat, ws: seq<Entry>): (r: State)
    requires k < |st.flights|
    ensures r.wants == ws
    ensures r.track.doing == st.track.doing - 1
    ensures r.track.pending == st.track.pending + 1
    ensures multiset(r.flights) + multiset{st.flights[k]} == multiset(st.flights)
    ensures r.peers == st.peers && r.queries == st.queries
  {
    assert st.flights == st.flights[..k] + [st.flights[k]] + st.flights[k + 1..];
    st.(wants := ws,
        track := OneTrack.Complete(st.track, false),
        flights := st.flights[..k] + st.flights[k + 1..])
  }

  /**
   A successful write of the requested blob, whose store key is
   `desigil(id)`, takes the entry off the want-list.
   */
  lemma StoredRemovesEntry(st: State, k: nat)
    requires k < |st.flights|
    requires IsBlob(st.flights[k].id)
    ensures !Wants(StoreReply(st, k, Stored(Desigil(st.flights[k].id))).wants, st.flights[k].id)
  {
    SigilRoundTrip(st.flights[k].id);
  }

  /** An armed re-invocation fires: the timer goes and the job is called. */
  function TimerFires(st: State): (r: State)
    requires st.track.pending > 0
    ensures r == Trigger(st.(track := OneTrack.Fire(st.track)))
    ensures r.track.pending + 1 == st.track.pending
  {
    Trigger(st.(track := OneTrack.Fire(st.track)))
  }

  /**
   The peer is chosen by connectivity alone: with `has = {A: false, B: true}`
   and both connected, the job streams from A, which said it does not have
   the blob.
   */
  lemma PeerChoiceIgnoresHasValue(id: string)
    ensures Choose([Entry(id, Ready, [("@A", false), ("@B", true)], 0)], {"@A", "@B"})
         == Some(Pick(0, "@A"))
  {
    var e := Entry(id, Ready, [("@A", false), ("@B", true)], 0);
    var peers := {"@A", "@B"};
    assert e.has[1].1 && e.has[1].0 in peers;
    assert Downloadable(e, peers);
    assert "@A" != "@B";
  }

}

=== FILE: helpers.dfy ===
/**
 The small pure helpers of the replication plugin: `clamp`, the blob sigil
 handling, and the recency rule the link monitor applies before it queues a
 hash.
 */
module Helpers {

  function Min(a: int, b: int): int { if a <= b then a else b }

  function Max(a: int, b: int): int { if a >= b then a else b }

  /** `clamp(n, lo, hi)` is `Math.min(Math.max(n, lo), hi)`. */
  function Clamp(n: int, lo: int, hi: int): (r: int)
    ensures lo <= hi ==> lo <= r <= hi
    ensures lo <= n <= hi ==> r == n
    ensures n < lo && lo <= hi ==> r == lo
    ensures hi < n ==> r == hi
  {
    Min(Max(n, lo), hi)
  }

  /** Upper bound of an entry's `notfounds` counter. */
  const MAX_NOTFOUNDS: int := 40

  /** What one negative `has` answer does to `notfounds`. */
  function NotFound(n: int): int {
    Clamp(n + 1, 0, MAX_NOTFOUNDS)
  }

  /** `NotFound` applied `k` times: `k` negative answers in a row. */
  function NotFoundTimes(n: int, k: nat): int
    decreases k
  {
    if k == 0 then n else NotFoundTimes(NotFound(n), k - 1)
  }

  /** From an in-range counter one negative answer counts one more miss, stopping at 40. */
  lemma NotFoundStep(n: int)
    requires 0 <= n <= MAX_NOTFOUNDS
    ensures NotFound(n) == Min(n + 1, MAX_NOTFOUNDS)
    ensures 0 <= NotFound(n) <= MAX_NOTFOUNDS
  {
  }

  /** Any number of negative answers keeps the counter in range and saturates at 40. */
  lemma {:induction false} NotFoundSaturates(n: int, k: nat)
    requires 0 <= n <= MAX_NOTFOUNDS
    ensures NotFoundTimes(n, k) == Min(n + k, MAX_NOTFOUNDS)
    ensures 0 <= NotFoundTimes(n, k) <= MAX_NOTFOUNDS
    decreases k
  {
    if k > 0 {
      NotFoundStep(n);
      NotFoundSaturates(NotFound(n), k - 1);
    }
  }

  /** The characters of standard base64. */
  predicate IsBase64Char(c: char) {
    ('A' <= c <= 'Z') || ('a' <= c <= 'z') || ('0' <= c <= '9') || c == '+' || c == '/'
  }

  /**
   `isBlobId` of ssb-ref: `&`, the 44-character base64 form of a sha256
   digest (43 characters then the padding `=`), then `.sha256`.
   */
  predicate IsBlob(s: string) {
    && |s| == 52
    && s[0] == '&'
    && (forall i :: 1 <= i < 44 ==> IsBase64Char(s[i]))
    && s[44..] == "=.sha256"
  }

  /** `desigil(hash)`: the blob store's key for a blob id; other strings pass through. */
  function Desigil(hash: string): (r: string)
    ensures IsBlob(hash) ==> |r| + 1 == |hash| && ['&'] + r == hash
    ensures !IsBlob(hash) ==> r == hash
  {
    if IsBlob(hash) then hash[1..] else hash
  }

  /** `resigil(hash)`: always puts `&` in front. */
  function Resigil(hash: string): (r: string)
    ensures |r| == |hash| + 1 && r[0] == '&' && r[1..] == hash
  {
    "&" + hash
  }

  /** Store key back to blob id: `resigil(desigil(h)) == h` for every blob id. */
  lemma SigilRoundTrip(h: string)
    requires IsBlob(h)
    ensures Resigil(Desigil(h)) == h
  {
  }

  /** Blob id back to store key: `desigil(resigil(k)) == k` whenever `resigil(k)` is a blob id. */
  lemma SigilRoundTripKey(k: string)
    requires IsBlob(Resigil(k))
    ensures Desigil(Resigil(k)) == k
  {
  }

  /** `MONTH_IN_MS`: thirty days in milliseconds. */
  const MONTH_IN_MS: int := 1000 * 60 * 60 * 24 * 30

  function Abs(x: int): nat { if x < 0 then -x else x }

  /**
   The link monitor's admission rule: a linked hash is queued when it is a
   blob id, the store does not hold it, and the linking message's timestamp
   lies strictly within a month of `now`, before or after.
   */
  predicate Admit(hash: string, held: bool, now: int, timestamp: int): (r: bool)
    ensures r <==> IsBlob(hash) && !held && -MONTH_IN_MS < now - timestamp < MONTH_IN_MS
  {
    IsBlob(hash) && !held && Abs(now - timestamp) < MONTH_IN_MS
  }

  /** Exactly one month away, in either direction, is rejected; one millisecond less is admitted. */
  lemma AdmitBoundary(hash: string, now: int)
    requires IsBlob(hash)
    ensures !Admit(hash, false, now, now - MONTH_IN_MS)
    ensures !Admit(hash, false, now, now + MONTH_IN_MS)
    ensures Admit(hash, false, now, now - MONTH_IN_MS + 1)
    ensures Admit(hash, false, now, now + MONTH_IN_MS - 1)
  {
  }

  /** The rule does not care whether the message lies in the past or the future. */
  lemma AdmitSymmetric(hash: string, held: bool, now: int, d: int)
    ensures Admit(hash, held, now, now - d) == Admit(hash, held, now, now + d)
  {
  }

  /** A message 29 days old is admitted; one 31 days old is not. */
  lemma AdmitTwentyNineDays(hash: string, now: int)
    requires IsBlob(hash)
    ensures Admit(hash, false, now, now - 29 * 24 * 60 * 60 * 1000)
    ensures !Admit(hash, false, now, now - 31 * 24 * 60 * 60 * 1000)
  {
  }

  /** Held blobs and non-blob links are never admitted, whatever the timestamp. */
  lemma AdmitNeedsBlobNotHeld(hash: string, held: bool, now: int, timestamp: int)
    requires Admit(hash, held, now, timestamp)
    ensures IsBlob(hash) && !held && hash[0] == '&'
    ensures -MONTH_IN_MS < now - timestamp < MONTH_IN_MS
  {
  }

}

=== FILE: node.dfy ===
/**
 The state the replication plugin works on, as one immutable record. Every
 asynchronous callback of the source is a separate event that maps one such
 record to the next.
 */
module Node {
  import opened WantList
  import OneTrack

  /** A started download whose store write has not reported back: entry id and source peer. */
  datatype Flight = Flight(id: string, peer: string)

  datatype State = State(
    wants: seq<Entry>,                  // the want-list, in its iteration order
    peers: set<string>,                 // ids with a live connection in `sbot.peers`
    queries: map<string, seq<string>>,  // `queries`: peers with a `has` query in flight, with the ids asked
    track: OneTrack.Track,              // the download job's `oneTrack` bookkeeping
    flights: seq<Flight>)               // downloads waiting for their store write

  /** The plugin as created: empty want-list, no peers, nothing in flight. */
  const Initial: State := State([], {}, map[], OneTrack.Idle, [])

}

=== FILE: one_track.dfy ===
/**
 `oneTrack(delay, n, label, fun)`: a job that runs `fun` at most `n` times at
 once and re-arms itself when `fun` reports "not done".

 Only the bookkeeping is modelled: `doing`, the number of invocations of `fun`
 that have started and not completed, and `pending`, the number of armed
 re-invocation timers. Timings are not modelled. In the source the inner
 `function delay (job, d)` is hoisted over the numeric `delay` parameter, so
 the computed wait `~~(delay/2 + delay*Math.random())` is `~~NaN`, which is 0:
 every re-arm fires after a zero-millisecond timeout, with no jitter.
 */
module OneTrack {
  import opened Wrappers

  datatype Track = Track(doing: int, pending: nat)

  /** A freshly created job: nothing running, no timer armed. */
  const Idle: Track := Track(0, 0)

  /**
   `job()`: a call with `doing >= n` is dropped and changes nothing; any
   other call starts one more invocation of `fun` (the boolean result).
   */
  function Call(t: Track, n: int): (r: (Track, bool))
    ensures r.1 <==> t.doing < n
    ensures !r.1 ==> r.0 == t
    ensures r.1 ==> r.0.doing == t.doing + 1
    ensures r.0.pending == t.pending
    ensures t.doing <= n ==> r.0.doing <= n
  {
    if t.doing >= n then (t, false) else (Track(t.doing + 1, t.pending), true)
  }

  /**
   The callback `fun` is handed, called as `done(d)`: one invocation ends;
   a truthy `d` arms nothing, a falsy `d` arms exactly one re-invocation.
   */
  function Complete(t: Track, done: bool): (r: Track)
    ensures r.doing == t.doing - 1
    ensures done ==> r.pending == t.pending
    ensures !done ==> r.pending == t.pending + 1
  {
    Track(t.doing - 1, if done then t.pending else t.pending + 1)
  }

  /** An armed timer fires: it leaves the timer list, and the caller then calls `job()`. */
  function Fire(t: Track): (r: Track)
    requires t.pending > 0
    ensures r.doing == t.doing && r.pending + 1 == t.pending
  {
    Track(t.doing, t.pending - 1)
  }

  /** The events a job sees: an outside call, a completion, a timer firing. */
  datatype Event = Invoke | Finish(done: bool) | Timeout

  /**
   One event, or `None` when the event cannot happen: only a running
   invocation can complete, and only an armed timer can fire. A timer that
   fires calls `job()`, which is dropped at capacity like any other call.
   */
  function Step(t: Track, n: int, e: Event): Option<Track> {
    match e
    case Invoke => Some(Call(t, n).0)
    case Finish(d) => if t.doing > 0 then Some(Complete(t, d)) else None
    case Timeout => if t.pending > 0 then Some(Call(Fire(t), n).0) else None
  }

  /** Runs a sequence of events; `None` when one of them cannot happen. */
  function Run(t: Track, n: int, es: seq<Event>): Option<Track>
    decreases |es|
  {
    if |es| == 0 then Some(t)
    else match Step(t, n, es[0])
      case None => None
      case Some(t') => Run(t', n, es[1..])
  }

  /** Every possible event keeps `0 <= doing <= n`. */
  lemma StepBounded(t: Track, n: int, e: Event)
    requires 0 <= t.doing <= n
    requires Step(t, n, e).Some?
    ensures 0 <= Step(t, n, e).value.doing <= n
  {
  }

  /**
   Whatever storm of calls, completions and timers a job sees, at most `n`
   invocations of `fun` run at once.
   */
  lemma {:induction false} RunBounded(t: Track, n: int, es: seq<Event>)
    requires 0 <= t.doing <= n
    requires Run(t, n, es).Some?
    ensures 0 <= Run(t, n, es).value.doing <= n
    decreases |es|
  {
    if |es| > 0 {
      StepBounded(t, n, es[0]);
      RunBounded(Step(t, n, es[0]).value, n, es[1..]);
    }
  }

  /**
   Each completion reporting "not done" leaves one more timer armed than one
   reporting "done": over a run of completions only, the timers armed are
   exactly the falsy ones.
   */
  lemma {:induction false} CompletionsArmTimers(t: Track, ds: seq<bool>)
    requires t.doing >= |ds|
    ensures Run(t, t.doing, Completions(ds)).Some?
    ensures Run(t, t.doing, Completions(ds)).value
      == Track(t.doing - |ds|, t.pending + Falsy(ds))
    decreases |ds|
  {
    if |ds| > 0 {
      var t' := Complete(t, ds[0]);
      assert Completions(ds)[1..] == Completions(ds[1..]);
      CompletionsArmTimers(t', ds[1..]);
      assert Run(t', t'.doing, Completions(ds[1..])) == Run(t', t.doing, Completions(ds[1..])) by {
        RunCapacityIrrelevant(t', t'.doing, t.doing, ds[1..]);
      }
    }
  }

  /** Completions do not look at the capacity. */
  lemma {:induction false} RunCapacityIrrelevant(t: Track, n: int, n': int, ds: seq<bool>)
    ensures Run(t, n, Completions(ds)) == Run(t, n', Completions(ds))
    decreases |ds|
  {
    if |ds| > 0 {
      assert Completions(ds)[1..] == Completions(ds[1..]);
      if t.doing > 0 {
        RunCapacityIrrelevant(Complete(t, ds[0]), n, n', ds[1..]);
      }
    }
  }

  function Completions(ds: seq<bool>): (es: seq<Event>)
    ensures |es| == |ds|
    ensures forall i :: 0 <= i < |ds| ==> es[i] == Finish(ds[i])
  {
    seq(|ds|, i requires 0 <= i < |ds| => Finish(ds[i]))
  }

  /** How many of `ds` are false. */
  function Falsy(ds: seq<bool>): nat
    decreases |ds|
  {
    if |ds| == 0 then 0 else (if ds[0] then 0 else 1) + Falsy(ds[1..])
  }

}

=== FILE: ordered_map.dfy ===
/**
 Plain JavaScript objects used as maps. `for (var k in obj)` visits own keys in
 insertion order (peer ids and blob ids are never integer-like, so no key is
 moved to the front), so an object is modelled as a sequence of key/value pairs
 in that order. Assigning a new key appends it; assigning an existing key keeps
 its place; `delete` removes it.
 */
module OrderedMap {
  import opened Wrappers

  type OMap<K, V> = seq<(K, V)>

  /** Every key occurs once, as in a real object. */
  ghost predicate KeysDistinct<K, V>(m: OMap<K, V>) {
    forall i, j :: 0 <= i < j < |m| ==> m[i].0 != m[j].0
  }

  /** Position of the first element `p` accepts, scanning from the front. */
  function FirstIndex<T>(s: seq<T>, p: T -> bool): (r: Option<nat>)
    ensures r.Some? ==> r.value < |s| && p(s[r.value])
    ensures r.Some? ==> forall j :: 0 <= j < r.value ==> !p(s[j])
    ensures r.None? <==> forall j :: 0 <= j < |s| ==> !p(s[j])
  {
    if |s| == 0 then None
    else if p(s[0]) then Some(0)
    else match FirstIndex(s[1..], p)
      case None => None
      case Some(i) => Some(i + 1)
  }

  /** `first(obj, iter)`: the value of the first entry that `iter(value, key)` accepts. */
  function First<K, V>(m: OMap<K, V>, iter: (V, K) -> bool): (r: Option<V>)
    ensures r.None? <==> forall j :: 0 <= j < |m| ==> !iter(m[j].1, m[j].0)
    ensures r.Some? ==>
      exists j :: 0 <= j < |m| && iter(m[j].1, m[j].0) && r.value == m[j].1
        && forall i :: 0 <= i < j ==> !iter(m[i].1, m[i].0)
  {
    match FirstIndex(m, (e: (K, V)) => iter(e.1, e.0))
    case None => None
    case Some(j) => Some(m[j].1)
  }

  /** `firstKey(obj, iter)`: the key of the first entry that `iter(value, key)` accepts. */
  function FirstKey<K, V>(m: OMap<K, V>, iter: (V, K) -> bool): (r: Option<K>)
    ensures r.None? <==> forall j :: 0 <= j < |m| ==> !iter(m[j].1, m[j].0)
    ensures r.Some? ==>
      exists j :: 0 <= j < |m| && iter(m[j].1, m[j].0) && r.value == m[j].0
        && forall i :: 0 <= i < j ==> !iter(m[i].1, m[i].0)
  {
    match FirstIndex(m, (e: (K, V)) => iter(e.1, e.0))
    case None => None
    case Some(j) => Some(m[j].0)
  }

  /** Position of key `k`, if the object has it. */
  function IndexOf<K(==, !new), V>(m: OMap<K, V>, k: K): (r: Option<nat>)
    ensures r.Some? ==> r.value < |m| && m[r.value].0 == k
    ensures r.Some? ==> forall j :: 0 <= j < r.value ==> m[j].0 != k
    ensures r.None? <==> forall j :: 0 <= j < |m| ==> m[j].0 != k
    decreases |m|
  {
    if |m| == 0 then None
    else if m[0].0 == k then Some(0)
    else match IndexOf(m[1..], k)
      case None => None
      case Some(i) => Some(i + 1)
  }

  /** `obj[k]`: `None` when the key is absent. */
  function Get<K(==, !new), V>(m: OMap<K, V>, k: K): (r: Option<V>)
    ensures r.None? <==> forall j :: 0 <= j < |m| ==> m[j].0 != k
    ensures KeysDistinct(m) ==> forall j :: 0 <= j < |m| && m[j].0 == k ==> r == Some(m[j].1)
    decreases |m|
  {
    if |m| == 0 then None
    else if m[0].0 == k then Some(m[0].1)
    else
      assert KeysDistinct(m) ==> KeysDistinct(m[1..]);
      Get(m[1..], k)
  }

  /** `obj[k] = v`: an existing key keeps its place, a new key goes last. */
  function Put<K(==, !new), V>(m: OMap<K, V>, k: K, v: V): (r: OMap<K, V>)
    ensures IndexOf(m, k).Some? ==> |r| == |m| && forall j :: 0 <= j < |m| ==> r[j].0 == m[j].0
    ensures IndexOf(m, k).None? ==> r == m + [(k, v)]
    decreases |m|
  {
    if |m| == 0 then [(k, v)]
    else if m[0].0 == k then [(k, v)] + m[1..]
    else [m[0]] + Put(m[1..], k, v)
  }

  /** `delete obj[k]`: the other keys keep their relative order. */
  function Delete<K(==, !new), V>(m: OMap<K, V>, k: K): (r: OMap<K, V>)
    ensures IndexOf(m, k).None? ==> r == m
    ensures IndexOf(m, k).Some? ==> r == m[..IndexOf(m, k).value] + m[IndexOf(m, k).value + 1..]
    decreases |m|
  {
    if |m| == 0 then m
    else if m[0].0 == k then m[1..]
    else [m[0]] + Delete(m[1..], k)
  }

  /** Reading back a key just written gives the written value. */
  lemma {:induction false} GetPutSame<K(!new), V>(m: OMap<K, V>, k: K, v: V)
    ensures Get(Put(m, k, v), k) == Some(v)
    decreases |m|
  {
    if |m| > 0 && m[0].0 != k {
      GetPutSame(m[1..], k, v);
      assert Put(m, k, v)[1..] == Put(m[1..], k, v);
    }
  }

  /** Writing one key leaves every other key's value as it was. */
  lemma {:induction false} GetPutOther<K(!new), V>(m: OMap<K, V>, k: K, v: V, k': K)
    requires k' != k
    ensures Get(Put(m, k, v), k') == Get(m, k')
    decreases |m|
  {
    var r := Put(m, k, v);
    if |m| == 0 {
    } else if m[0].0 == k {
      assert r[1..] == m[1..];
    } else {
      GetPutOther(m[1..], k, v, k');
      assert r[1..] == Put(m[1..], k, v);
    }
  }

  /** Writing a key keeps keys distinct. */
  lemma PutKeysDistinct<K(!new), V>(m: OMap<K, V>, k: K, v: V)
    ensures KeysDistinct(m) ==> KeysDistinct(Put(m, k, v))
  {
  }

  /** After `delete obj[k]` the key is gone, given a well-formed object. */
  lemma {:induction false} GetDeleteSame<K(!new), V>(m: OMap<K, V>, k: K)
    requires KeysDistinct(m)
    ensures Get(Delete(m, k), k) == None
    decreases |m|
  {
    if |m| > 0 {
      assert KeysDistinct(m[1..]);
      if m[0].0 == k {
        assert forall j :: 0 <= j < |m[1..]| ==> m[1..][j] == m[j + 1];
      } else {
        GetDeleteSame(m[1..], k);
        assert Delete(m, k)[1..] == Delete(m[1..], k);
      }
    }
  }

  /** Deleting one key leaves every other key's value as it was. */
  lemma {:induction false} GetDeleteOther<K(!new), V>(m: OMap<K, V>, k: K, k': K)
    requires k' != k
    ensures Get(Delete(m, k), k') == Get(m, k')
    decreases |m|
  {
    if |m| > 0 && m[0].0 != k {
      GetDeleteOther(m[1..], k, k');
      assert Delete(m, k)[1..] == Delete(m[1..], k);
    }
  }

  /** Deleting a key keeps keys distinct. */
  lemma DeleteKeysDistinct<K(!new), V>(m: OMap<K, V>, k: K)
    requires KeysDistinct(m)
    ensures KeysDistinct(Delete(m, k))
  {
    var r := Delete(m, k);
    match IndexOf(m, k)
    case None =>
    case Some(i) =>
      forall a, b | 0 <= a < b < |r|
        ensures r[a].0 != r[b].0
      {
        var a' := if a < i then a else a + 1;
        var b' := if b < i then b else b + 1;
        assert r[a] == m[a'] && r[b] == m[b'] && a' < b';
      }
  }

}

=== FILE: query.dfy ===
/**
 The query worker: `query(remoteid, done)`. At most one batched `has` query
 is in flight per peer, marked in `queries`. The reply is a separate event.
 */
module Query {
  import opened Wrappers
  import opened OrderedMap
  import opened Helpers
  import opened WantList
  import opened Node
  import Download

  /** The filter of `query`'s `subset` call: `waiting` and not found at `peer`. */
  predicate Needed(ws: seq<Entry>, e: Entry, peer: string) {
    e.phase == Waiting && !IsFoundAt(ws, e.id, peer)
  }

  /** `neededBlobs`: the entries to ask `peer` about, in want-list order. */
  function Candidates(ws: seq<Entry>, peer: string): (r: seq<Entry>)
    ensures forall e :: e in r <==> e in ws && Needed(ws, e, peer)
    ensures IdsDistinct(ws) ==> IdsDistinct(r)
    ensures InOrder(r, ws)
  {
    var p := (e: Entry) => Needed(ws, e, peer);
    SubsetIdsDistinct(ws, p);
    SubsetOrdered(ws, p);
    Subset(ws, p)
  }

  /** How a call of `query` ends: `done()` at once, or a `has` request is sent. */
  datatype Outcome = Skipped | Sent(ids: seq<string>)

  /**
   `query(peer)` up to the remote call. It does nothing and calls back at
   once when the peer is not connected, when a query to it is already in
   flight, or when no entry is `waiting` and not found at it. Otherwise it
   marks the peer before asking about every candidate id, in order.
   */
  function Start(st: State, peer: string): (r: (State, Outcome))
    ensures r.1.Skipped? <==>
      peer !in st.peers || peer in st.queries || |Candidates(st.wants, peer)| == 0
    ensures r.1.Skipped? ==> r.0 == st
    ensures r.1.Sent? ==>
      && r.1.ids == Ids(Candidates(st.wants, peer))
      && r.0 == st.(queries := st.queries[peer := r.1.ids])
    ensures peer in st.queries ==> r.0.queries == st.queries
    ensures IdsDistinct(st.wants) && r.1.Sent? ==> NoDup(r.1.ids)
  {
    if peer !in st.peers then (st, Skipped)
    else if peer in st.queries then (st, Skipped)
    else
      var needed := Candidates(st.wants, peer);
      if |needed| == 0 then (st, Skipped)
      else
        var ids := Ids(needed);
        (st.(queries := st.queries[peer := ids]), Sent(ids))
  }

  /** `hasList[i]` is truthy; an index past the end reads `undefined`, which is falsy. */
  predicate Truthy(l: seq<bool>, i: nat) {
    i < |l| && l[i]
  }

  /**
   The per-candidate loop of the reply, from index `i` on. A candidate no
   longer wanted is skipped. A truthy answer records the peer with
   `setFoundAt`, registers the id for the completion callback and calls
   `download()`, which runs at once. A falsy answer counts one more miss.
   The second result lists the ids the completion waits for.
   */
  function ReplyLoop(st: State, peer: string, ids: seq<string>, l: seq<bool>, i: nat): (r: (State, seq<string>))
    requires i <= |ids|
    ensures r.0.peers == st.peers && r.0.queries == st.queries
    ensures Download.JobInv(st) ==> Download.JobInv(r.0)
    ensures IdsDistinct(st.wants) ==> IdsDistinct(r.0.wants)
    ensures AllWellFormed(st.wants) ==> AllWellFormed(r.0.wants)
    ensures Ids(r.0.wants) == Ids(st.wants)
    ensures r.1 == Waited(st.wants, ids, l, i)
    decreases |ids| - i
  {
    if i == |ids| then (st, [])
    else
      var id := ids[i];
      if !Wants(st.wants, id) then ReplyLoop(st, peer, ids, l, i + 1)
      else
        var st1 := Answer(st, peer, id, Truthy(l, i));
        SameIdsDistinct(st1.wants, st.wants);
        WaitedSameIds(st1.wants, st.wants, ids, l, i + 1);
        var next := ReplyLoop(st1, peer, ids, l, i + 1);
        if Truthy(l, i) then (next.0, [id] + next.1) else next
  }

  /**
   The loop body for a candidate still wanted. A truthy answer is
   `setFoundAt` followed by a call of the download job; a falsy one counts a
   miss. Ids, peers and queries are untouched and the invariants are kept.
   */
  function Answer(st: State, peer: string, id: string, found: bool): (r: State)
    ensures r.peers == st.peers && r.queries == st.queries
    ensures Ids(r.wants) == Ids(st.wants)
    ensures Download.JobInv(st) ==> Download.JobInv(r)
    ensures AllWellFormed(st.wants) ==> AllWellFormed(r.wants)
    ensures found ==> r == Download.FoundAt(st, id, peer)
    ensures !found ==> r == st.(wants := BumpNotFound(st.wants, id))
    ensures found && Wants(st.wants, id) ==> IsFoundAt(r.wants, id, peer)
    ensures !found && Wants(st.wants, id) ==>
      r.wants[Find(st.wants, id).value].notfounds == NotFound(st.wants[Find(st.wants, id).value].notfounds)
  {
    if found then Download.FoundAt(st, id, peer)
    else st.(wants := BumpNotFound(st.wants, id))
  }

  /**
   The ids, from index `i` on, that are still wanted in `ws` and answered
   truthy: the ones the reply registers with the completion callback.
   */
  function Waited(ws: seq<Entry>, ids: seq<string>, l: seq<bool>, i: nat): (r: seq<string>)
    requires i <= |ids|
    ensures forall x :: x in r ==> Wants(ws, x) && exists q :: i <= q < |ids| && ids[q] == x && Truthy(l, q)
    ensures forall q :: i <= q < |ids| && Wants(ws, ids[q]) && Truthy(l, q) ==> ids[q] in r
    decreases |ids| - i
  {
    if i == |ids| then []
    else
      var rest := Waited(ws, ids, l, i + 1);
      if Wants(ws, ids[i]) && Truthy(l, i) then [ids[i]] + rest else rest
  }

  /** `Waited` looks only at the ids of the want-list. */
  lemma {:induction false} WaitedSameIds(a: seq<Entry>, b: seq<Entry>, ids: seq<string>, l: seq<bool>, i: nat)
    requires i <= |ids| && Ids(a) == Ids(b)
    ensures Waited(a, ids, l, i) == Waited(b, ids, l, i)
    decreases |ids| - i
  {
    if i < |ids| {
      FindSameIds(a, b, ids[i]);
      WaitedSameIds(a, b, ids, l, i + 1);
    }
  }

  /** How the caller's `done` is reached after a reply. */
  datatype Completion =
    | NeverCalled               // no `hasList`: `done` is never called
    | AfterGot(ids: seq<string>) // once every listed id has been got

  /**
   The `has` reply from `peer` arrives, with or without an error. The
   in-flight marker is cleared first in every case; without a `hasList`
   nothing else happens and the caller is never called back.
   */
  function Reply(st: State, peer: string, hasList: Option<seq<bool>>): (r: (State, Completion))
    requires peer in st.queries
    ensures r.0.queries == st.queries - {peer}
    ensures r.0.peers == st.peers
    ensures hasList.None? ==> r == (st.(queries := st.queries - {peer}), NeverCalled)
    ensures hasList.Some? ==> r.1 == AfterGot(Waited(st.wants, st.queries[peer], hasList.value, 0))
    ensures Download.JobInv(st) ==> Download.JobInv(r.0)
    ensures IdsDistinct(st.wants) ==> IdsDistinct(r.0.wants)
    ensures AllWellFormed(st.wants) ==> AllWellFormed(r.0.wants)
  {
    var ids := st.queries[peer];
    var st1 := st.(queries := st.queries - {peer});
    match hasList
    case None => (st1, NeverCalled)
    case Some(l) =>
      var (st2, found) := ReplyLoop(st1, peer, ids, l, 0);
      (st2, AfterGot(found))
  }

  /** Where `id` stands among the ids asked. */
  function Position(ids: seq<string>, id: string): (r: Option<nat>)
    ensures r.Some? ==> r.value < |ids| && ids[r.value] == id
    ensures r.Some? ==> forall j :: 0 <= j < r.value ==> ids[j] != id
    ensures r.None? <==> forall j :: 0 <= j < |ids| ==> ids[j] != id
    decreases |ids|
  {
    if |ids| == 0 then None
    else if ids[0] == id then Some(0)
    else match Position(ids[1..], id)
      case None => None
      case Some(q) => Some(q + 1)
  }

  /**
   The knowledge (has-object, miss counter) the reply loop from index `i` on
   leaves in entry `e`: an entry asked about at a position `q >= i` gains
   `has[peer] = true` when `hasList[q]` is truthy and one more miss when it
   is not; any other entry keeps its knowledge.
   */
  ghost function Expected(e: Entry, peer: string, ids: seq<string>, l: seq<bool>, i: nat): (OMap<string, bool>, int) {
    match Position(ids, e.id)
    case None => (e.has, e.notfounds)
    case Some(q) =>
      if q < i then (e.has, e.notfounds)
      else if Truthy(l, q) then (Put(e.has, peer, true), e.notfounds)
      else (e.has, NotFound(e.notfounds))
  }

  /** `after` holds, entry by entry and in place, the knowledge `Expected` says. */
  ghost predicate KnowledgeAfter(before: seq<Entry>, after: seq<Entry>, peer: string, ids: seq<string>, l: seq<bool>, i: nat) {
    && |after| == |before|
    && forall j :: 0 <= j < |before| ==>
         && after[j].id == before[j].id
         && (after[j].has, after[j].notfounds) == Expected(before[j], peer, ids, l, i)
  }

  /** One iteration's worth of `Expected`: the entries before and after it predict the same end. */
  ghost predicate StepAgrees(ws: seq<Entry>, ws1: seq<Entry>, peer: string, ids: seq<string>, l: seq<bool>, i: nat) {
    && |ws1| == |ws|
    && forall j :: 0 <= j < |ws| ==>
         ws1[j].id == ws[j].id && Expected(ws1[j], peer, ids, l, i + 1) == Expected(ws[j], peer, ids, l, i)
  }

  /** A candidate that is no longer wanted changes no entry's predicted knowledge. */
  lemma SkipStep(ws: seq<Entry>, peer: string, ids: seq<string>, l: seq<bool>, i: nat)
    requires i < |ids| && !Wants(ws, ids[i])
    ensures StepAgrees(ws, ws, peer, ids, l, i)
  {
    forall j | 0 <= j < |ws|
      ensures Expected(ws[j], peer, ids, l, i + 1) == Expected(ws[j], peer, ids, l, i)
    {
      assert ws[j].id != ids[i];
    }
  }

  /** Entries the candidate does not name keep their prediction across its iteration. */
  lemma OtherStep(e: Entry, e1: Entry, peer: string, ids: seq<string>, l: seq<bool>, i: nat)
    requires i < |ids| && e.id != ids[i]
    requires e1.id == e.id && e1.has == e.has && e1.notfounds == e.notfounds
    ensures Expected(e1, peer, ids, l, i + 1) == Expected(e, peer, ids, l, i)
  {
  }

  /** The candidate's own entry, after a truthy answer, already holds its predicted knowledge. */
  lemma FoundStep(e: Entry, e1: Entry, peer: string, ids: seq<string>, l: seq<bool>, i: nat)
    requires i < |ids| && e.id == ids[i] && NoDup(ids) && Truthy(l, i)
    requires e1.id == e.id && e1.has == Put(e.has, peer, true) && e1.notfounds == e.notfounds
    ensures Expected(e1, peer, ids, l, i + 1) == Expected(e, peer, ids, l, i)
  {
    assert Position(ids, e.id) == Some(i);
  }

  /** The candidate's own entry, after a falsy answer, already holds its predicted knowledge. */
  lemma MissStep(e: Entry, e1: Entry, peer: string, ids: seq<string>, l: seq<bool>, i: nat)
    requires i < |ids| && e.id == ids[i] && NoDup(ids) && !Truthy(l, i)
    requires e1.id == e.id && e1.has == e.has && e1.notfounds == NotFound(e.notfounds)
    ensures Expected(e1, peer, ids, l, i + 1) == Expected(e, peer, ids, l, i)
  {
    assert Position(ids, e.id) == Some(i);
  }

  /** At the end of the list nothing remains to predict. */
  lemma EndStep(ws: seq<Entry>, peer: string, ids: seq<string>, l: seq<bool>)
    ensures KnowledgeAfter(ws, ws, peer, ids, l, |ids|)
  {
  }

  /** One iteration of the reply loop agrees with `Expected`. */
  lemma LoopStep(st: State, peer: string, ids: seq<string>, l: seq<bool>, i: nat)
    requires i < |ids| && Wants(st.wants, ids[i])
    requires IdsDistinct(st.wants) && NoDup(ids)
    ensures StepAgrees(st.wants, Answer(st, peer, ids[i], Truthy(l, i)).wants, peer, ids, l, i)
  {
    var ws := st.wants;
    var id := ids[i];
    var k := Find(ws, id).value;
    var ws1 := Answer(st, peer, id, Truthy(l, i)).wants;
    assert |ws1| == |ws|;
    forall j | 0 <= j < |ws|
      ensures ws1[j].id == ws[j].id
      ensures Expected(ws1[j], peer, ids, l, i + 1) == Expected(ws[j], peer, ids, l, i)
    {
      if j == k {
        if Truthy(l, i) {
          FoundStep(ws[j], ws1[j], peer, ids, l, i);
        } else {
          MissStep(ws[j], ws1[j], peer, ids, l, i);
        }
      } else {
        assert ws[j].id != id;
        OtherStep(ws[j], ws1[j], peer, ids, l, i);
      }
    }
  }

  /** The loop's effect on knowledge is exactly `Expected`, entry by entry, in place. */
  lemma {:induction false} ReplyLoopKnowledge(st: State, peer: string, ids: seq<string>, l: seq<bool>, i: nat)
    requires i <= |ids|
    requires IdsDistinct(st.wants) && NoDup(ids)
    ensures KnowledgeAfter(st.wants, ReplyLoop(st, peer, ids, l, i).0.wants, peer, ids, l, i)
    decreases |ids| - i
  {
    var ws := st.wants;
    if i == |ids| {
      EndStep(ws, peer, ids, l);
    } else {
      var id := ids[i];
      var st1 := if !Wants(ws, id) then st else Answer(st, peer, id, Truthy(l, i));
      if !Wants(ws, id) {
        SkipStep(ws, peer, ids, l, i);
      } else {
        LoopStep(st, peer, ids, l, i);
        SameIdsDistinct(st1.wants, ws);
      }
      ReplyLoopKnowledge(st1, peer, ids, l, i + 1);
      var r := ReplyLoop(st, peer, ids, l, i).0;
      assert r == ReplyLoop(st1, peer, ids, l, i + 1).0;
      assert KnowledgeAfter(ws, r.wants, peer, ids, l, i);
    }
  }

  /**
   A reply with a `hasList` to the query that asked `ids`: an entry not
   asked about keeps its knowledge; the entry asked about at index `q` gains
   `has[peer] = true` when `hasList[q]` is truthy, and otherwise keeps its
   has-object and counts one clamped miss. Entries stay in place.
   */
  lemma ReplyKnowledge(st: State, peer: string, l: seq<bool>)
    requires peer in st.queries
    requires IdsDistinct(st.wants) && NoDup(st.queries[peer])
    ensures
      var r := Reply(st, peer, Some(l)).0;
      var ids := st.queries[peer];
      && |r.wants| == |st.wants|
      && forall j :: 0 <= j < |st.wants| ==>
           && r.wants[j].id == st.wants[j].id
           && (st.wants[j].id !in ids ==>
                 r.wants[j].has == st.wants[j].has && r.wants[j].notfounds == st.wants[j].notfounds)
           && (forall q :: 0 <= q < |ids| && ids[q] == st.wants[j].id ==>
                 && (Truthy(l, q) ==>
                       r.wants[j].has == Put(st.wants[j].has, peer, true)
                       && r.wants[j].notfounds == st.wants[j].notfounds)
                 && (!Truthy(l, q) ==>
                       r.wants[j].has == st.wants[j].has
                       && r.wants[j].notfounds == NotFound(st.wants[j].notfounds)))
  {
    var ids := st.queries[peer];
    var st1 := st.(queries := st.queries - {peer});
    ReplyLoopKnowledge(st1, peer, ids, l, 0);
    var r := Reply(st, peer, Some(l)).0;
    assert r == ReplyLoop(st1, peer, ids, l, 0).0;
    forall j, q | 0 <= j < |st.wants| && 0 <= q < |ids| && ids[q] == st.wants[j].id
      ensures Position(ids, st.wants[j].id) == Some(q)
    {
    }
  }

}

=== FILE: replication.dfy ===
/**
 The plugin's event handlers and the whole machine: the link monitor, the
 connect handler, the `blobs.changes` notifications, and every callback of
 the query and download workers, each as one event on `State`.
 */
module Replication {
  import opened Wrappers
  import opened OrderedMap
  import opened Helpers
  import opened WantList
  import opened Node
  import Download
  import Query
  import OneTrack

  /**
   A link to `hash` seen on the feed, after the store answered `held` and
   the feed gave the linking message's `timestamp`. The hash is queued
   exactly when the admission rule holds; nothing else changes.
   */
  function LinkSeen(st: State, hash: string, held: bool, now: int, timestamp: int): (r: State)
    ensures Wants(r.wants, hash) <==> Wants(st.wants, hash) || Admit(hash, held, now, timestamp)
    ensures !Admit(hash, held, now, timestamp) ==> r == st
    ensures Admit(hash, held, now, timestamp) && !Wants(st.wants, hash) ==>
      r.wants == st.wants + [Entry(hash, Waiting, [], 0)]
    ensures r == st.(wants := r.wants)
  {
    if Admit(hash, held, now, timestamp) then st.(wants := Queue(st.wants, hash)) else st
  }

  /**
   `rpc:connect` from `peer`: every recorded `has[peer] === false` is
   deleted, then `query(peer)` runs.
   */
  function Connect(st: State, peer: string): (r: State)
    ensures r.peers == st.peers + {peer}
    ensures |r.wants| == |st.wants|
    ensures forall j :: 0 <= j < |st.wants| ==> r.wants[j] == ForgetNegative(st.wants[j], peer)
    ensures peer in st.queries ==> r.queries == st.queries
    ensures peer !in st.queries ==>
      var c := Query.Candidates(r.wants, peer);
      && (|c| == 0 ==> r.queries == st.queries)
      && (|c| > 0 ==> r.queries == st.queries[peer := Ids(c)])
    ensures r.track == st.track && r.flights == st.flights
  {
    var st1 := st.(peers := st.peers + {peer}, wants := ForgetNegatives(st.wants, peer));
    Query.Start(st1, peer).0
  }

  /**
   After `rpc:connect`, a `waiting` entry that `peer` had said it lacks is
   asked about again in the query the handler starts, unless a query to
   that peer is still in flight.
   */
  lemma StaleNegativeRequeried(st: State, peer: string, j: nat)
    requires IdsDistinct(st.wants) && j < |st.wants|
    requires KeysDistinct(st.wants[j].has)
    requires st.wants[j].phase == Waiting && Get(st.wants[j].has, peer) == Some(false)
    requires peer !in st.queries
    ensures peer in Connect(st, peer).queries
    ensures st.wants[j].id in Connect(st, peer).queries[peer]
  {
    var ws1 := ForgetNegatives(st.wants, peer);
    var st1 := st.(peers := st.peers + {peer}, wants := ws1);
    var e := ws1[j];
    SameIdsDistinct(ws1, st.wants);
    FindAt(ws1, j);
    assert Get(e.has, peer) == None;
    assert Query.Needed(ws1, e, peer);
    var c := Query.Candidates(ws1, peer);
    assert e in c;
    var q :| 0 <= q < |c| && c[q] == e;
    assert Ids(c)[q] == e.id;
    assert Query.Start(st1, peer).0 == Connect(st, peer);
  }

  /** The connection to `peer` is gone from `sbot.peers`. */
  function Disconnect(st: State, peer: string): (r: State)
    ensures peer !in r.peers && r == st.(peers := st.peers - {peer})
  {
    st.(peers := st.peers - {peer})
  }

  /**
   `peer` announces on `blobs.changes` that it now has `hash`. A wanted
   hash is recorded as found at the peer and the download job is called;
   any other hash is ignored.
   */
  function PeerHas(st: State, peer: string, hash: string): (r: State)
    ensures !Wants(st.wants, hash) ==> r == st
    ensures Wants(st.wants, hash) ==> IsFoundAt(r.wants, hash, peer)
    ensures Wants(st.wants, hash) ==> SameKnowledge(r.wants, SetFoundAt(st.wants, hash, peer))
    ensures Wants(st.wants, hash) ==> r == Download.FoundAt(st, hash, peer)
  {
    if Wants(st.wants, hash) then Download.FoundAt(st, hash, peer) else st
  }

  /** Everything that can happen to the plugin. */
  datatype Event =
    | LinkEvent(hash: string, held: bool, now: int, timestamp: int)
    | ConnectEvent(peer: string)
    | DisconnectEvent(peer: string)
    | QueryCall(peer: string)                              // `query` called by the want-list
    | HasReply(peer: string, hasList: Option<seq<bool>>)   // a `blobs.has` answer
    | ChangesEvent(peer: string, hash: string)             // one `blobs.changes` item
    | StoreEvent(k: nat, result: Download.StoreResult)     // store write of flight `k` reports
    | TimerEvent                                           // an armed re-invocation fires

  /** A reply needs a query in flight, a store report a started download, a timer an armed one. */
  predicate Enabled(st: State, ev: Event) {
    match ev
    case HasReply(peer, _) => peer in st.queries
    case StoreEvent(k, _) => k < |st.flights|
    case TimerEvent => st.track.pending > 0
    case _ => true
  }

  /**
   One event. Only connects and disconnects change the peer directory.
   */
  function Step(st: State, ev: Event): (r: State)
    requires Enabled(st, ev)
    ensures r.peers == match ev
      case ConnectEvent(peer) => st.peers + {peer}
      case DisconnectEvent(peer) => st.peers - {peer}
      case _ => st.peers
  {
    match ev
    case LinkEvent(hash, held, now, timestamp) => LinkSeen(st, hash, held, now, timestamp)
    case ConnectEvent(peer) => Connect(st, peer)
    case DisconnectEvent(peer) => Disconnect(st, peer)
    case QueryCall(peer) => Query.Start(st, peer).0
    case HasReply(peer, hasList) => Query.Reply(st, peer, hasList).0
    case ChangesEvent(peer, hash) => PeerHas(st, peer, hash)
    case StoreEvent(k, result) => Download.StoreReply(st, k, result)
    case TimerEvent => Download.TimerFires(st)
  }

  /**
   Only the link monitor queues blobs: after any other event every wanted
   id was wanted before, and after a link only the linked hash can be new.
   */
  lemma StepOnlyLinksQueue(st: State, ev: Event, id: string)
    requires Enabled(st, ev)
    requires Wants(Step(st, ev).wants, id) && !Wants(st.wants, id)
    ensures ev.LinkEvent? && ev.hash == id
  {
    var r := Step(st, ev);
    match ev
    case LinkEvent(hash, held, now, timestamp) =>
    case ConnectEvent(peer) =>
      FindSameIds(r.wants, st.wants, id);
    case DisconnectEvent(peer) =>
    case QueryCall(peer) =>
    case HasReply(peer, hasList) =>
      FindSameIds(r.wants, st.wants, id);
    case ChangesEvent(peer, hash) =>
      if Wants(st.wants, hash) {
        FindSameIds(r.wants, st.wants, id);
      }
    case StoreEvent(k, result) =>
      match result {
        case StoreFailed => SameKnowledgeLookups(r.wants, st.wants, id, "");
        case Stored(hash) => GotAddsNothing(st.wants, Resigil(hash), id);
      }
    case TimerEvent =>
      SameKnowledgeLookups(r.wants, st.wants, id, "");
  }

  /** Runs events in order; `None` if one of them cannot happen. */
  function Run(st: State, evs: seq<Event>): Option<State>
    decreases |evs|
  {
    if |evs| == 0 then Some(st)
    else if !Enabled(st, evs[0]) then None
    else Run(Step(st, evs[0]), evs[1..])
  }

  /**
   What every reachable state keeps: one entry per blob, proper has-objects,
   `notfounds` in [0, 40], every running download counted and at most five
   of them, and no id asked twice in one query.
   */
  ghost predicate Inv(st: State) {
    && IdsDistinct(st.wants)
    && AllWellFormed(st.wants)
    && Download.JobInv(st)
    && forall peer :: peer in st.queries ==> NoDup(st.queries[peer])
  }

  lemma InitialInv()
    ensures Inv(Initial)
  {
  }

  lemma LinkSeenInv(st: State, hash: string, held: bool, now: int, timestamp: int)
    requires Inv(st)
    ensures Inv(LinkSeen(st, hash, held, now, timestamp))
  {
    var r := LinkSeen(st, hash, held, now, timestamp);
    if Admit(hash, held, now, timestamp) && !Wants(st.wants, hash) {
      assert r.wants[|st.wants|] == Entry(hash, Waiting, [], 0);
      assert forall j :: 0 <= j < |st.wants| ==> r.wants[j] == st.wants[j];
    }
  }

  lemma ConnectInv(st: State, peer: string)
    requires Inv(st)
    ensures Inv(Connect(st, peer))
  {
    var ws1 := ForgetNegatives(st.wants, peer);
    assert forall j :: 0 <= j < |ws1| ==> ws1[j].id == st.wants[j].id;
    assert IdsDistinct(ws1);
    assert forall j :: 0 <= j < |ws1| ==> WellFormed(st.wants[j]) ==> WellFormed(ws1[j]);
  }

  lemma StartInv(st: State, peer: string)
    requires Inv(st)
    ensures Inv(Query.Start(st, peer).0)
  {
  }

  lemma ReplyInv(st: State, peer: string, hasList: Option<seq<bool>>)
    requires Inv(st) && peer in st.queries
    ensures Inv(Query.Reply(st, peer, hasList).0)
  {
  }

  lemma PeerHasInv(st: State, peer: string, hash: string)
    requires Inv(st)
    ensures Inv(PeerHas(st, peer, hash))
  {
    SameIdsDistinct(PeerHas(st, peer, hash).wants, st.wants);
  }

  lemma StoreInv(st: State, k: nat, res: Download.StoreResult)
    requires Inv(st) && k < |st.flights|
    ensures Inv(Download.StoreReply(st, k, res))
  {
    var r := Download.StoreReply(st, k, res);
    assert |multiset(r.flights)| + 1 == |multiset(st.flights)|;
    match res
    case StoreFailed =>
      SameKnowledgeWellFormed(r.wants, st.wants);
    case Stored(_) =>
      assert forall j :: 0 <= j < |r.wants| ==> r.wants[j] in r.wants;
  }

  lemma TimerInv(st: State)
    requires Inv(st) && st.track.pending > 0
    ensures Inv(Download.TimerFires(st))
  {
    SameKnowledgeWellFormed(Download.TimerFires(st).wants, st.wants);
  }

  /** Every event keeps the invariant. */
  lemma StepInv(st: State, ev: Event)
    requires Inv(st) && Enabled(st, ev)
    ensures Inv(Step(st, ev))
  {
    match ev
    case LinkEvent(hash, held, now, timestamp) => LinkSeenInv(st, hash, held, now, timestamp);
    case ConnectEvent(peer) => ConnectInv(st, peer);
    case DisconnectEvent(peer) =>
    case QueryCall(peer) => StartInv(st, peer);
    case HasReply(peer, hasList) => ReplyInv(st, peer, hasList);
    case ChangesEvent(peer, hash) => PeerHasInv(st, peer, hash);
    case StoreEvent(k, result) => StoreInv(st, k, result);
    case TimerEvent => TimerInv(st);
  }

  /**
   Whatever happens, in whatever order: at most five downloads run, each is
   counted in `doing`, and every `notfounds` stays in [0, 40].
   */
  lemma {:induction false} RunInv(st: State, evs: seq<Event>)
    requires Inv(st)
    requires Run(st, evs).Some?
    ensures Inv(Run(st, evs).value)
    ensures 0 <= Run(st, evs).value.track.doing <= Download.SLOTS
    ensures forall j :: 0 <= j < |Run(st, evs).value.wants| ==>
      0 <= Run(st, evs).value.wants[j].notfounds <= MAX_NOTFOUNDS
    decreases |evs|
  {
    if |evs| > 0 {
      StepInv(st, evs[0]);
      RunInv(Step(st, evs[0]), evs[1..]);
    }
    var r := Run(st, evs).value;
    assert forall j :: 0 <= j < |r.wants| ==> WellFormed(r.wants[j]);
  }

  /**
   One wanted blob `h`, ready, recorded at connected peer `b`: the job
   streams it from `b`; a failed write puts it back to `ready`, where the next
   call picks it again; a successful write of `h` takes it off the list.
   */
  lemma DownloadEndToEnd(h: string, b: string)
    requires IsBlob(h) && b != ""
    ensures
      var st := State([Entry(h, Ready, [(b, true)], 0)], {b}, map[], OneTrack.Idle, []);
      var st1 := Download.Trigger(st);
      && st1.flights == [Flight(h, b)]
      && st1.wants[0].phase == Downloading
      && Download.Choose(st1.wants, st1.peers).None?
      && !Wants(Download.StoreReply(st1, 0, Download.Stored(Desigil(h))).wants, h)
      && Download.StoreReply(st1, 0, Download.StoreFailed).wants[0].phase == Ready
      && Download.Choose(Download.StoreReply(st1, 0, Download.StoreFailed).wants, st1.peers)
         == Some(Download.Pick(0, b))
  {
    var e := Entry(h, Ready, [(b, true)], 0);
    var st := State([e], {b}, map[], OneTrack.Idle, []);
    var st1 := State([e.(phase := Downloading)], {b}, map[], OneTrack.Track(1, 0), [Flight(h, b)]);
    TriggerSole(e, b);
    ChooseNoneReady(st1.wants, st1.peers);
    assert Download.StoreReply(st1, 0, Download.StoreFailed).wants == [e] by {
      assert Find(st1.wants, h) == Some(0);
    }
    ChooseSole(e, st1.peers, b);
    Download.StoredRemovesEntry(st1, 0);
  }

  /** The job's call on a sole downloadable entry starts exactly its download. */
  lemma TriggerSole(e: Entry, b: string)
    requires e.phase == Ready && e.has == [(b, true)] && b != ""
    ensures Download.Trigger(State([e], {b}, map[], OneTrack.Idle, []))
         == State([e.(phase := Downloading)], {b}, map[], OneTrack.Track(1, 0), [Flight(e.id, b)])
  {
    var st := State([e], {b}, map[], OneTrack.Idle, []);
    ChooseSole(e, st.peers, b);
    assert Find(st.wants, e.id) == Some(0);
    var r := Download.Trigger(st);
    assert r.wants[0] == e.(phase := Downloading);
  }

  /** With no entry `ready`, the job finds nothing to fetch. */
  lemma ChooseNoneReady(ws: seq<Entry>, peers: set<string>)
    requires forall j :: 0 <= j < |ws| ==> ws[j].phase != Ready
    ensures Download.Choose(ws, peers).None?
  {
    assert forall j :: 0 <= j < |ws| ==> !Download.Downloadable(ws[j], peers);
  }

  /** A sole `ready` entry recorded at one connected peer is picked, from that peer. */
  lemma ChooseSole(e: Entry, peers: set<string>, b: string)
    requires e.phase == Ready && e.has == [(b, true)] && b in peers && b != ""
    ensures Download.Choose([e], peers) == Some(Download.Pick(0, b))
  {
    assert e.has[0].1 && e.has[0].0 in peers;
    Download.DownloadableMeans(e, peers);
  }

}

=== FILE: want_list.dfy ===
/**
 The want-list as the replication code uses it. `./want-list` itself is not
 part of this model; its operations are given the smallest definitions that
 agree with how this code calls them:
 - entries are kept in iteration order and identified by their (sigiled) id;
 - `subset(pred)` returns the matching entries in that order;
 - `wants(h)` holds while an entry for `h` is present;
 - `isFoundAt(h, p)` reads `has[p] === true` on that entry;
 - `setFoundAt(h, p)` writes `has[p] = true` and promotes a `waiting` entry
   to `ready`, the lifecycle step "some peer confirmed it";
 - `got(h)` removes the entry;
 - `queue(h)` appends a `waiting` entry with no knowledge and `notfounds` 0,
   unless `h` is already tracked.
 */
module WantList {
  import opened Wrappers
  import opened OrderedMap
  import opened Helpers

  datatype Phase = Waiting | Ready | Downloading

  /** One wanted blob: its id, lifecycle phase, per-peer knowledge and miss counter. */
  datatype Entry = Entry(id: string, phase: Phase, has: OMap<string, bool>, notfounds: int)

  /** No two entries track the same blob. */
  ghost predicate IdsDistinct(ws: seq<Entry>) {
    NoDup(Ids(ws))
  }

  /** No id occurs twice. */
  ghost predicate NoDup(ids: seq<string>) {
    forall i, j :: 0 <= i < j < |ids| ==> ids[i] != ids[j]
  }

  /** The shape every entry keeps: a proper has-object and an in-range miss counter. */
  ghost predicate WellFormed(e: Entry) {
    KeysDistinct(e.has) && 0 <= e.notfounds <= MAX_NOTFOUNDS
  }

  ghost predicate AllWellFormed(ws: seq<Entry>) {
    forall j :: 0 <= j < |ws| ==> WellFormed(ws[j])
  }

  /** `subset(pred)`: the entries `pred` accepts, in want-list order. */
  function Subset<T>(ws: seq<T>, p: T -> bool): (r: seq<T>)
    ensures |r| <= |ws|
    ensures forall x :: x in r ==> x in ws && p(x)
    ensures forall j :: 0 <= j < |ws| && p(ws[j]) ==> ws[j] in r
    decreases |ws|
  {
    if |ws| == 0 then []
    else (if p(ws[0]) then [ws[0]] else []) + Subset(ws[1..], p)
  }

  /** `subset` keeps order: filtering a concatenation filters each part in turn. */
  lemma {:induction false} SubsetConcat<T>(a: seq<T>, b: seq<T>, p: T -> bool)
    ensures Subset(a + b, p) == Subset(a, p) + Subset(b, p)
    decreases |a|
  {
    if |a| == 0 {
      assert a + b == b;
    } else {
      assert (a + b)[0] == a[0];
      assert (a + b)[1..] == a[1..] + b;
      SubsetConcat(a[1..], b, p);
    }
  }

  /**
   `r` lists elements of `ws` in the order they stand there: of any two
   elements of `r`, the earlier one occurs in `ws` before the later one.
   */
  ghost predicate InOrder<T>(r: seq<T>, ws: seq<T>) {
    forall a, b :: 0 <= a < b < |r| ==> Before(ws, r[a], r[b])
  }

  /** `x` occurs in `ws` at an earlier position than `y`. */
  ghost predicate Before<T>(ws: seq<T>, x: T, y: T) {
    exists i, j :: 0 <= i < j < |ws| && ws[i] == x && ws[j] == y
  }

  /** `subset` keeps the want-list order of the entries it accepts. */
  lemma {:induction false} SubsetOrdered<T>(ws: seq<T>, p: T -> bool)
    ensures InOrder(Subset(ws, p), ws)
    decreases |ws|
  {
    if |ws| > 0 {
      var st := Subset(ws[1..], p);
      SubsetOrdered(ws[1..], p);
      if p(ws[0]) {
        assert Subset(ws, p) == [ws[0]] + st;
        InOrderCons(st, ws);
      } else {
        assert Subset(ws, p) == st;
        InOrderSkip(st, ws);
      }
    }
  }

  /** Order within the tail of `ws` is order within `ws`. */
  lemma InOrderSkip<T>(r: seq<T>, ws: seq<T>)
    requires |ws| > 0 && InOrder(r, ws[1..])
    ensures InOrder(r, ws)
  {
    var t := ws[1..];
    forall a, b | 0 <= a < b < |r|
      ensures Before(ws, r[a], r[b])
    {
      assert Before(t, r[a], r[b]);
      var i, j :| 0 <= i < j < |t| && t[i] == r[a] && t[j] == r[b];
      assert ws[i + 1] == r[a] && ws[j + 1] == r[b];
    }
  }

  /** Putting the head of `ws` in front of an ordered list drawn from its tail keeps it ordered. */
  lemma InOrderCons<T>(r: seq<T>, ws: seq<T>)
    requires |ws| > 0 && InOrder(r, ws[1..])
    requires forall x :: x in r ==> x in ws[1..]
    ensures InOrder([ws[0]] + r, ws)
  {
    var t, s := ws[1..], [ws[0]] + r;
    forall a, b | 0 <= a < b < |s|
      ensures Before(ws, s[a], s[b])
    {
      assert s[b] == r[b - 1];
      if a == 0 {
        assert r[b - 1] in t;
        var j :| 0 <= j < |t| && t[j] == r[b - 1];
        assert ws[0] == s[a] && ws[j + 1] == s[b];
      } else {
        assert s[a] == r[a - 1];
        assert Before(t, r[a - 1], r[b - 1]);
        var i, j :| 0 <= i < j < |t| && t[i] == r[a - 1] && t[j] == r[b - 1];
        assert ws[i + 1] == s[a] && ws[j + 1] == s[b];
      }
    }
  }

  /** The head of `subset(pred)` is the first entry `pred` accepts. */
  lemma {:induction false} SubsetHead<T>(ws: seq<T>, p: T -> bool)
    ensures |Subset(ws, p)| > 0 <==> FirstIndex(ws, p).Some?
    ensures |Subset(ws, p)| > 0 ==> Subset(ws, p)[0] == ws[FirstIndex(ws, p).value]
    decreases |ws|
  {
    if |ws| > 0 && !p(ws[0]) {
      SubsetHead(ws[1..], p);
      assert forall j :: 0 < j < |ws| ==> ws[j] == ws[1..][j - 1];
    }
  }

  /** Position of the entry for `id`. */
  function Find(ws: seq<Entry>, id: string): (r: Option<nat>)
    ensures r.Some? ==> r.value < |ws| && ws[r.value].id == id
    ensures r.Some? ==> forall j :: 0 <= j < r.value ==> ws[j].id != id
    ensures r.None? <==> forall j :: 0 <= j < |ws| ==> ws[j].id != id
    decreases |ws|
  {
    if |ws| == 0 then None
    else if ws[0].id == id then Some(0)
    else match Find(ws[1..], id)
      case None => None
      case Some(i) => Some(i + 1)
  }

  /** In a list without repeated ids, an entry is found where it stands. */
  lemma FindAt(ws: seq<Entry>, j: nat)
    requires IdsDistinct(ws) && j < |ws|
    ensures Find(ws, ws[j].id) == Some(j)
  {
  }

  /** Lookups by id see only the ids. */
  lemma {:induction false} FindSameIds(a: seq<Entry>, b: seq<Entry>, id: string)
    requires Ids(a) == Ids(b)
    ensures Find(a, id) == Find(b, id)
    decreases |a|
  {
    if |a| > 0 {
      assert a[0].id == Ids(a)[0] == b[0].id;
      assert Ids(a[1..]) == Ids(a)[1..] == Ids(b)[1..] == Ids(b[1..]);
      FindSameIds(a[1..], b[1..], id);
    }
  }

  /** Lists with the same ids in the same order agree on repeated ids. */
  lemma SameIdsDistinct(a: seq<Entry>, b: seq<Entry>)
    requires Ids(a) == Ids(b)
    ensures IdsDistinct(a) <==> IdsDistinct(b)
  {
    assert forall j :: 0 <= j < |a| ==> a[j].id == Ids(a)[j] == b[j].id;
  }

  /** `wants(id)`. */
  predicate Wants(ws: seq<Entry>, id: string) {
    Find(ws, id).Some?
  }

  /** `isFoundAt(id, peer)`: the entry records `has[peer] === true`. */
  predicate IsFoundAt(ws: seq<Entry>, id: string, peer: string) {
    match Find(ws, id)
    case None => false
    case Some(i) => Get(ws[i].has, peer) == Some(true)
  }

  /** The ids of `ws`, in order. */
  function Ids(ws: seq<Entry>): (r: seq<string>)
    ensures |r| == |ws|
    ensures forall j :: 0 <= j < |ws| ==> r[j] == ws[j].id
  {
    seq(|ws|, j requires 0 <= j < |ws| => ws[j].id)
  }

  /**
   Two want-lists that differ at most in entries' phases: same ids in the
   same order, same per-peer knowledge, same miss counters.
   */
  ghost predicate SameKnowledge(a: seq<Entry>, b: seq<Entry>) {
    && |a| == |b|
    && forall j :: 0 <= j < |a| ==>
         a[j].id == b[j].id && a[j].has == b[j].has && a[j].notfounds == b[j].notfounds
  }

  /** Lookups by id only see knowledge, never phases. */
  lemma SameKnowledgeLookups(a: seq<Entry>, b: seq<Entry>, id: string, peer: string)
    requires SameKnowledge(a, b)
    ensures Find(a, id) == Find(b, id)
    ensures Wants(a, id) == Wants(b, id)
    ensures IsFoundAt(a, id, peer) == IsFoundAt(b, id, peer)
  {
    assert forall j :: 0 <= j < |a| ==> a[j].id == b[j].id;
  }

  /** Want-lists with the same knowledge are well formed together. */
  lemma SameKnowledgeWellFormed(a: seq<Entry>, b: seq<Entry>)
    requires SameKnowledge(a, b)
    ensures Ids(a) == Ids(b)
    ensures IdsDistinct(a) <==> IdsDistinct(b)
    ensures AllWellFormed(a) <==> AllWellFormed(b)
  {
    assert forall j :: 0 <= j < |a| ==> a[j].id == b[j].id;
    assert forall j :: 0 <= j < |a| ==> WellFormed(a[j]) == WellFormed(b[j]);
  }

  /** Entries of `subset(pred)` of a list without repeated ids have no repeated ids. */
  lemma {:induction false} SubsetIdsDistinct(ws: seq<Entry>, p: Entry -> bool)
    ensures IdsDistinct(ws) ==> IdsDistinct(Subset(ws, p))
    decreases |ws|
  {
    if IdsDistinct(ws) && |ws| > 0 {
      var tail := ws[1..];
      assert IdsDistinct(tail);
      SubsetIdsDistinct(tail, p);
      var rest := Subset(tail, p);
      forall x | x in rest
        ensures x.id != ws[0].id
      {
        var i :| 0 <= i < |tail| && tail[i] == x;
        assert ws[i + 1] == x;
      }
      var r := Subset(ws, p);
      if p(ws[0]) {
        assert r == [ws[0]] + rest;
        ConsIdsDistinct(ws[0], rest);
      } else {
        assert r == rest;
      }
    }
  }

  /** Putting an entry in front of a list that lacks its id keeps ids distinct. */
  lemma ConsIdsDistinct(e: Entry, ws: seq<Entry>)
    requires IdsDistinct(ws)
    requires forall x :: x in ws ==> x.id != e.id
    ensures IdsDistinct([e] + ws)
  {
    var r := [e] + ws;
    forall i, j | 0 <= i < j < |r|
      ensures r[i].id != r[j].id
    {
      assert r[j] == ws[j - 1] && ws[j - 1] in ws;
      if i > 0 {
        assert r[i] == ws[i - 1];
      }
    }
  }

  /** Replaces the entry for `id` with `e'`; an untracked id changes nothing. */
  function Modify(ws: seq<Entry>, id: string, e': Entry): (r: seq<Entry>)
    requires e'.id == id
    ensures |r| == |ws| && Ids(r) == Ids(ws)
    ensures Wants(ws, id) ==> r[Find(ws, id).value] == e'
    ensures Wants(ws, id) ==> forall j :: 0 <= j < |ws| && j != Find(ws, id).value ==> r[j] == ws[j]
    ensures !Wants(ws, id) ==> r == ws
    ensures Find(r, id) == Find(ws, id)
  {
    match Find(ws, id)
    case None => ws
    case Some(i) => ws[i := e']
  }

  /** `setFoundAt(id, peer)`. */
  function SetFoundAt(ws: seq<Entry>, id: string, peer: string): (r: seq<Entry>)
    ensures Wants(ws, id) ==> IsFoundAt(r, id, peer)
    ensures Ids(r) == Ids(ws) && |r| == |ws|
    ensures forall j :: 0 <= j < |ws| && ws[j].id != id ==> r[j] == ws[j]
    ensures forall j :: 0 <= j < |ws| ==> r[j].notfounds == ws[j].notfounds
    ensures forall j :: 0 <= j < |ws| && KeysDistinct(ws[j].has) ==> KeysDistinct(r[j].has)
    ensures Wants(ws, id) ==> r[Find(ws, id).value].has == Put(ws[Find(ws, id).value].has, peer, true)
    ensures Wants(ws, id) ==> r[Find(ws, id).value].phase != Waiting
    ensures Wants(ws, id) && ws[Find(ws, id).value].phase == Waiting ==> r[Find(ws, id).value].phase == Ready
    ensures forall j :: 0 <= j < |ws| && ws[j].phase != Waiting ==> r[j].phase == ws[j].phase
    ensures !Wants(ws, id) ==> r == ws
  {
    match Find(ws, id)
    case None => ws
    case Some(i) =>
      var e := ws[i];
      var e' := e.(has := Put(e.has, peer, true), phase := if e.phase == Waiting then Ready else e.phase);
      PutKeysDistinct(e.has, peer, true);
      GetPutSame(e.has, peer, true);
      Modify(ws, id, e')
  }

  /** One negative answer for `id`: `notfounds = clamp(notfounds + 1, 0, 40)`. */
  function BumpNotFound(ws: seq<Entry>, id: string): (r: seq<Entry>)
    ensures Ids(r) == Ids(ws) && |r| == |ws|
    ensures forall j :: 0 <= j < |ws| && ws[j].id != id ==> r[j] == ws[j]
    ensures forall j :: 0 <= j < |ws| ==> r[j].has == ws[j].has && r[j].phase == ws[j].phase
    ensures Wants(ws, id) ==> r[Find(ws, id).value].notfounds == NotFound(ws[Find(ws, id).value].notfounds)
    ensures !Wants(ws, id) ==> r == ws
  {
    match Find(ws, id)
    case None => ws
    case Some(i) => Modify(ws, id, ws[i].(notfounds := NotFound(ws[i].notfounds)))
  }

  /** Sets the phase of the entry for `id` (`f.state = …` on that entry). */
  function SetPhase(ws: seq<Entry>, id: string, ph: Phase): (r: seq<Entry>)
    ensures SameKnowledge(r, ws)
    ensures Wants(ws, id) ==> r[Find(ws, id).value].phase == ph
    ensures forall j :: 0 <= j < |ws| && ws[j].id != id ==> r[j] == ws[j]
    ensures !Wants(ws, id) ==> r == ws
  {
    match Find(ws, id)
    case None => ws
    case Some(i) => Modify(ws, id, ws[i].(phase := ph))
  }

  /** `got(id)`: the blob is satisfied and leaves the want-list; the rest keep their order. */
  function Got(ws: seq<Entry>, id: string): (r: seq<Entry>)
    ensures !Wants(r, id)
    ensures forall e :: e in r ==> e in ws
    ensures forall j :: 0 <= j < |ws| && ws[j].id != id ==> ws[j] in r
    ensures !Wants(ws, id) ==> r == ws
    ensures IdsDistinct(ws) ==> IdsDistinct(r)
    ensures IdsDistinct(ws) && Wants(ws, id) ==>
      r == ws[..Find(ws, id).value] + ws[Find(ws, id).value + 1..]
  {
    var p := (e: Entry) => e.id != id;
    var r := Subset(ws, p);
    SubsetIdsDistinct(ws, p);
    assert forall j :: 0 <= j < |r| ==> r[j] in r;
    assert !Wants(ws, id) ==> r == ws by {
      if !Wants(ws, id) { SubsetAll(ws, p); }
    }
    assert IdsDistinct(ws) && Wants(ws, id) ==> r == ws[..Find(ws, id).value] + ws[Find(ws, id).value + 1..] by {
      if IdsDistinct(ws) && Wants(ws, id) { GotSplices(ws, id); }
    }
    r
  }

  /** With distinct ids, dropping the entries of `id` drops exactly the one at its position. */
  lemma GotSplices(ws: seq<Entry>, id: string)
    requires IdsDistinct(ws) && Wants(ws, id)
    ensures
      var k := Find(ws, id).value;
      Subset(ws, (e: Entry) => e.id != id) == ws[..k] + ws[k + 1..]
  {
    var k := Find(ws, id).value;
    assert forall j :: 0 <= j < |ws| && j != k ==> Ids(ws)[j] != Ids(ws)[k];
    SubsetDropOne(ws, (e: Entry) => e.id != id, k);
  }

  /** `got` never makes an id wanted. */
  lemma GotAddsNothing(ws: seq<Entry>, x: string, id: string)
    ensures Wants(Got(ws, x), id) ==> Wants(ws, id)
  {
    var r := Got(ws, x);
    if Wants(r, id) {
      var i := Find(r, id).value;
      assert r[i] in r;
    }
  }

  /** Filtering with a predicate that fails only at position `k` splices out exactly that element. */
  lemma {:induction false} SubsetDropOne<T>(ws: seq<T>, p: T -> bool, k: nat)
    requires k < |ws| && !p(ws[k])
    requires forall j :: 0 <= j < |ws| && j != k ==> p(ws[j])
    ensures Subset(ws, p) == ws[..k] + ws[k + 1..]
    decreases k
  {
    var tail := ws[1..];
    if k == 0 {
      SubsetAll(tail, p);
      assert Subset(ws, p) == Subset(tail, p);
    } else {
      forall j | 0 <= j < |tail| && j != k - 1
        ensures p(tail[j])
      {
        assert tail[j] == ws[j + 1];
      }
      SubsetDropOne(tail, p, k - 1);
      assert Subset(ws, p) == [ws[0]] + Subset(tail, p);
      SpliceCons(ws, k);
    }
  }

  /** Splicing out a position past the head keeps the head in front. */
  lemma SpliceCons<T>(ws: seq<T>, k: nat)
    requires 0 < k < |ws|
    ensures ws[..k] + ws[k + 1..] == [ws[0]] + (ws[1..][..k - 1] + ws[1..][k..])
  {
    assert ws[..k] == [ws[0]] + ws[1..][..k - 1];
    assert ws[k + 1..] == ws[1..][k..];
  }

  /** Filtering with a predicate every element meets changes nothing. */
  lemma {:induction false} SubsetAll<T>(ws: seq<T>, p: T -> bool)
    requires forall j :: 0 <= j < |ws| ==> p(ws[j])
    ensures Subset(ws, p) == ws
    decreases |ws|
  {
    if |ws| > 0 {
      SubsetAll(ws[1..], p);
    }
  }

  /** `queue(id)`: a new id goes last as a fresh `waiting` entry; a tracked id changes nothing. */
  function Queue(ws: seq<Entry>, id: string): (r: seq<Entry>)
    ensures Wants(r, id)
    ensures Wants(ws, id) ==> r == ws
    ensures !Wants(ws, id) ==> r == ws + [Entry(id, Waiting, [], 0)]
  {
    if Wants(ws, id) then ws
    else
      var r := ws + [Entry(id, Waiting, [], 0)];
      assert r[|ws|].id == id;
      r
  }

  /** The connect handler's treatment of one entry: forget a recorded `false` for `peer`. */
  function ForgetNegative(e: Entry, peer: string): (r: Entry)
    ensures r.id == e.id && r.phase == e.phase && r.notfounds == e.notfounds
    ensures KeysDistinct(e.has) ==> Get(r.has, peer) == if Get(e.has, peer) == Some(false) then None else Get(e.has, peer)
    ensures forall k :: k != peer ==> Get(r.has, k) == Get(e.has, k)
    ensures KeysDistinct(e.has) ==> KeysDistinct(r.has)
    ensures Get(e.has, peer) == Some(false) ==> r.has == Delete(e.has, peer)
    ensures Get(e.has, peer) != Some(false) ==> r == e
  {
    if Get(e.has, peer) == Some(false) then
      var r := e.(has := Delete(e.has, peer));
      assert KeysDistinct(e.has) ==> Get(r.has, peer) == None && KeysDistinct(r.has) by {
        if KeysDistinct(e.has) { GetDeleteSame(e.has, peer); DeleteKeysDistinct(e.has, peer); }
      }
      assert forall k :: k != peer ==> Get(r.has, k) == Get(e.has, k) by {
        forall k | k != peer ensures Get(r.has, k) == Get(e.has, k) { GetDeleteOther(e.has, peer, k); }
      }
      r
    else e
  }

  /** `each(e => if (e.has[peer] === false) delete e.has[peer])`. */
  function ForgetNegatives(ws: seq<Entry>, peer: string): (r: seq<Entry>)
    ensures |r| == |ws|
    ensures forall j :: 0 <= j < |ws| ==> r[j] == ForgetNegative(ws[j], peer)
    ensures Ids(r) == Ids(ws)
  {
    seq(|ws|, j requires 0 <= j < |ws| => ForgetNegative(ws[j], peer))
  }

}

=== FILE: wrappers.dfy ===
/** Optional values. `None` stands for JavaScript's `undefined`. */
module Wrappers {

  datatype Option<+T> = None | Some(value: T)

}
